=== FILE: README.md ===
# mtrack_experiments luigi tasks, modelled in Dafny

This project models the task-graph core of `scripts/luigi_scripts/tasks.py`.

- **`EvaluateCombinations`** takes five parameter groups (general, data, preprocessing, output, solve) and a list of range keys.
- **`explode`** turns each group into its concrete configurations. Every entry whose key is a range key contributes one of its candidates, and `itertools.product` enumerates all choices.
- **`requires`** builds one `EvaluateTask` for every combination of one configuration per group.
- **`EvaluateTask.requires`** names the `TrackTask` on the same eight parameters.
- **Naming**: every `MtrackTask` derives its database name (`db_name`), its directories (`input_data_dir`, `train_dir`, `predict_dir`), its configuration hash (`config_hash`) and its output basename from those parameters.
- **The sample grid**: the grid that `scripts/grid_search_sample.py` hands to `EvaluateCombinations` is modelled as a constant. It is proved to yield 24 distinct evaluation tasks.

Files, one module each:

| file | module | contents |
|---|---|---|
| `params.dfy` | `Params` | parameter values, dictionaries in insertion order, lookups, the errors, and what `itertools.product` makes of a value |
| `seqs.dfy` | `Seqs` | the two-way product that the nested five-way product is built from |
| `cross_product.dfy` | `CrossProduct` | `itertools.product(*pools)` |
| `grid_expansion.dfy` | `GridExpansion` | `explode` |
| `text.dfy` | `Text` | `str(int)`, truncating division, `'_'.join` and Python's string order |
| `sorting.dfy` | `Sorting` | `sorted` by a string key |
| `posix_path.dfy` | `PosixPath` | `os.path.join`, plus `os.path.split` as its inverse |
| `tasks.dfy` | `Tasks` | the task parameters, the prerequisite, the hash, the database name and the directory layout |
| `fan_out.dfy` | `FanOut` | `EvaluateCombinations.requires` and the construction of each `EvaluateTask` |
| `sample_grid.dfy` | `SampleGrid` | the grid of `grid_search_sample.py` |

How Python behaviour is represented:

- **Dictionaries** are sequences of entries in insertion order. Luigi's frozen dictionaries keep that order.
- **Values** are strings, integers, lists, tuples, or opaque tokens (used for floats such as the smoothing values 0.1 and 0.2).
- **Exceptions** become `Failure` values of a `Result`:
  - `TypeError` from `itertools.product` on a value it cannot iterate
  - `TypeError` from a keyword given twice in `EvaluateTask(**g, data_parameters=...)`
  - luigi's unknown-parameter and missing-parameter errors
  - a general value of the wrong kind
- **SHA-1** is a function parameter `sha1`, about which nothing is assumed except, where stated, that it does not collide on two particular inputs.
- **The base directory** is a parameter. In the source it is the module global `base_dir`, which `set_base_dir` can change.

### Where the code does not do what it evidently means

The model follows the code. Where it also defines a corrected version, the
member's name or its comment says so (`Tasks.CanonicalInput`, the
corrected hash input; `Tasks.ConfigHashCorrected`;
`Tasks.OutputBasenameCorrected`), and nothing else is built on it.

- **Absent range keys are silently ignored.** `explode` only looks at the keys a group actually holds. One `range_keys` list serves all five groups, so a range key absent from a group cannot be an error (`GridExpansion.ExplodeIgnoresAbsentKeys`).
- **Strings are exploded character by character.** A ranged value that is a string is not rejected: `itertools.product` iterates over its characters. Only non-iterable values (integers, floats) fail.
- **Every evaluation has a tracking run of its own.** An `EvaluateTask`'s prerequisite is the `TrackTask` on all eight of its parameters, solve parameters included, and nothing merges tracking runs. So the 24 evaluations of the sample grid require 24 different tracking runs (`SampleGrid.SampleTasks`, `FanOut.RequiresDistinct`).
- **The hash ignores the parameter values.** The four dictionaries are declared as the "essential" parameters (tasks.py:66), and the hash is used as the name of each configuration's output directory (tasks.py:140-145, 184-189) and of the MongoDB collection a tracking run writes to (tasks.py:177-182). It evidently has to tell configurations apart. The code hashes the parameter names only, so it cannot (see Findings).

## Model

| member | source | states |
|---|---|---|
| Params.Iterate | scripts/luigi_scripts/tasks.py:249 | `itertools.product` can iterate exactly the strings, lists and tuples; a string contributes its one-character strings in order |
| Params.MapResult | scripts/luigi_scripts/tasks.py:211-229 | a loop that builds one result per element succeeds exactly when every element does, and then yields one result per element, in order |
| Params.MapResultFirstError | scripts/luigi_scripts/tasks.py:211-229 | a failing loop reports the error of the first element that fails, and every element before it succeeds |
| Seqs.PairsLength | scripts/luigi_scripts/tasks.py:212-217 | the product of two sequences has len(xs)·len(ys) elements |
| Seqs.PairsIndex | scripts/luigi_scripts/tasks.py:212-217 | the pair (xs[i], ys[j]) sits at position i·len(ys)+j: the second sequence varies fastest |
| Seqs.PairsAt | scripts/luigi_scripts/tasks.py:212-217 | every position of the product holds some pair (xs[i], ys[j]), at exactly position i·len(ys)+j |
| Seqs.PairsMember | scripts/luigi_scripts/tasks.py:212-217 | a pair occurs in the product exactly when both of its parts occur in their sequences |
| Seqs.PairsDistinct | scripts/luigi_scripts/tasks.py:212-217 | two repetition-free sequences give a repetition-free product |
| CrossProduct.ProductLength | scripts/luigi_scripts/tasks.py:249 | the product yields as many tuples as the product of the pool sizes |
| CrossProduct.ProductSound | scripts/luigi_scripts/tasks.py:249 | every tuple yielded picks one element from each pool |
| CrossProduct.ProductComplete | scripts/luigi_scripts/tasks.py:249 | every way of picking one element from each pool is yielded |
| CrossProduct.ProductMember | scripts/luigi_scripts/tasks.py:249 | a tuple is yielded exactly when it picks one element from each pool |
| CrossProduct.ProductIndex | scripts/luigi_scripts/tasks.py:249 | the tuple picking the i-th element of every pool sits at the mixed-radix position of those indices, the last pool counting fastest |
| CrossProduct.ProductAt | scripts/luigi_scripts/tasks.py:249 | every position of the product holds the tuple picked by the indices whose mixed-radix number it is |
| CrossProduct.ProductSplitFirst | scripts/luigi_scripts/tasks.py:249 | the product splits into the tuples taking the first pool's first element, followed by those taking a later one |
| CrossProduct.ProductDistinct | scripts/luigi_scripts/tasks.py:249 | repetition-free pools give repetition-free tuples |
| CrossProduct.SizeZero | scripts/luigi_scripts/tasks.py:249 | the product is empty exactly when some pool is empty |
| GridExpansion.PartitionMember | scripts/luigi_scripts/tasks.py:234-244 | an entry is among the ranged values exactly when it is in the group and its key is a range key, and among the other values exactly when its key is not |
| GridExpansion.PartitionWellFormed | scripts/luigi_scripts/tasks.py:234-244 | both comprehensions keep keys distinct |
| GridExpansion.PartitionsDisjoint | scripts/luigi_scripts/tasks.py:246-252 | the ranged keys and the other keys together have no repetition, so `update` never overwrites a zipped value |
| GridExpansion.PartitionGet | scripts/luigi_scripts/tasks.py:240-244 | a key that is not a range key keeps its value among the other values and is absent from the ranged ones |
| GridExpansion.PartitionRangeKeys | scripts/luigi_scripts/tasks.py:234-244 | only the membership of the group's own keys in the range keys matters |
| GridExpansion.Pools | scripts/luigi_scripts/tasks.py:249 | the candidate lists are collected exactly when every ranged value can be iterated; otherwise the error names a ranged key whose value cannot |
| GridExpansion.ZipGet | scripts/luigi_scripts/tasks.py:251 | in `dict(zip(keys, values))` with distinct keys and enough values, each key finds the value at its own position, and a key not among them finds nothing |
| GridExpansion.ExplodeSucceeds | scripts/luigi_scripts/tasks.py:231-256 | `explode` succeeds exactly when every ranged value is iterable; a failure names a ranged key whose value is not |
| GridExpansion.ExplodeNoRangedKeys | scripts/luigi_scripts/tasks.py:231-256 | a group without ranged keys explodes to just itself, since the product of no pools yields one empty tuple |
| GridExpansion.ExplodeCount | scripts/luigi_scripts/tasks.py:231-256 | the number of configurations is the product, over the ranged entries, of their candidate counts |
| GridExpansion.SizeIsCombinations | scripts/luigi_scripts/tasks.py:249 | the product's size equals that candidate-count product |
| GridExpansion.ExplodeEmptyCandidates | scripts/luigi_scripts/tasks.py:249-256 | one ranged entry with an empty candidate list makes `explode` return no configuration at all |
| GridExpansion.ExplodeMember | scripts/luigi_scripts/tasks.py:231-256 | a dictionary is produced exactly when it holds the ranged keys in the group's order, each with one of its candidates, followed by the other entries unchanged |
| GridExpansion.ExplodeSound | scripts/luigi_scripts/tasks.py:249-254 | every configuration produced is such a variant of the group |
| GridExpansion.ExplodeComplete | scripts/luigi_scripts/tasks.py:249-254 | every such variant of the group is produced |
| GridExpansion.ExplodeWellFormed | scripts/luigi_scripts/tasks.py:246-254 | each configuration has distinct keys: the ranged keys first, then the others |
| GridExpansion.ExplodeLookup | scripts/luigi_scripts/tasks.py:231-256 | each configuration has a value under exactly the group's keys; a key that is not a range key keeps its value; a ranged key holds one of its candidates |
| GridExpansion.RangedLookup | scripts/luigi_scripts/tasks.py:249-252 | a ranged key is present in a configuration exactly when it is present in the group, and it then holds one of its candidates |
| GridExpansion.ExplodeDistinct | scripts/luigi_scripts/tasks.py:231-256 | repetition-free candidate lists give pairwise different configurations |
| GridExpansion.DifferentCombos | scripts/luigi_scripts/tasks.py:249-252 | different candidate choices give different dictionaries |
| GridExpansion.ExplodeOrder | scripts/luigi_scripts/tasks.py:249-254 | the configurations that take the first ranged key's first candidate come first, followed by the rest: the first ranged key varies slowest |
| GridExpansion.ExplodeIndex | scripts/luigi_scripts/tasks.py:249-254 | the configuration at the mixed-radix position of a choice of candidate positions binds each ranged key to its chosen candidate and keeps the other entries: the last ranged key varies fastest |
| GridExpansion.ExplodeAt | scripts/luigi_scripts/tasks.py:249-254 | every configuration sits at the mixed-radix position of the candidates it binds |
| GridExpansion.ExplodeIgnoresAbsentKeys | scripts/luigi_scripts/tasks.py:234-246 | range keys the group does not hold change nothing |
| Text.NatToStringRoundTrip | scripts/luigi_scripts/tasks.py:91 | the decimal digits of `str(n)` read back to n |
| Text.IntToStringRoundTrip | scripts/luigi_scripts/tasks.py:91 | parsing `str(i)` gives back i, negative numbers included |
| Text.IntToStringInjective | scripts/luigi_scripts/tasks.py:91 | different integers have different decimal texts |
| Text.TruncDiv | scripts/luigi_scripts/tasks.py:98 | `int(a/1000)` is the quotient rounded toward zero: the floor for non-negative a, and the ceiling for negative a |
| Text.JoinWithAppend | scripts/luigi_scripts/tasks.py:95-99 | `sep.join` of two lists of parts one after the other is the two joins with one separator between them |
| Text.JoinWithThree | scripts/luigi_scripts/tasks.py:95-99 | `'_'.join` of three parts puts one separator between neighbours |
| Text.LessIrreflexive | scripts/luigi_scripts/tasks.py:102 | no string sorts before itself |
| Text.LessTransitive | scripts/luigi_scripts/tasks.py:102 | Python's string order is transitive |
| Text.LessTotal | scripts/luigi_scripts/tasks.py:102 | of two different strings one sorts before the other |
| Text.LessAsymmetric | scripts/luigi_scripts/tasks.py:102 | two strings never each sort before the other |
| Sorting.Insert | scripts/luigi_scripts/tasks.py:102 | inserting into a sorted list keeps it sorted and adds exactly the one element |
| Sorting.SortBy | scripts/luigi_scripts/tasks.py:102 | `sorted` returns a permutation of its input in key order |
| Sorting.SortedUnique | scripts/luigi_scripts/tasks.py:102 | two sorted arrangements of the same elements coincide when the key identifies each element |
| Sorting.SortByCanonical | scripts/luigi_scripts/tasks.py:102 | the sorted list does not depend on the order of the input |
| PosixPath.JoinSegments | scripts/luigi_scripts/tasks.py:72-91 | from a base ending in a name, relative components are joined with exactly one '/' each |
| PosixPath.JoinSnoc | scripts/luigi_scripts/tasks.py:72-91 | joining one more component continues the earlier join |
| PosixPath.JoinAppendSegment | scripts/luigi_scripts/tasks.py:72-91 | a relative component lands after exactly one '/', and the path still ends in a name |
| PosixPath.JoinAbsolute | scripts/luigi_scripts/tasks.py:72-91 | an absolute component discards everything joined before it |
| PosixPath.JoinEndsInName | scripts/luigi_scripts/tasks.py:140-145 | the joined path ends in a name when its last component does |
| PosixPath.SplitJoin | scripts/luigi_scripts/tasks.py:140-145 | splitting undoes joining a slash-free name onto a path that ends in a name |
| PosixPath.SplitJoinLast | scripts/luigi_scripts/tasks.py:140-145 | splitting a directory, a component and a final name gives back the final name and the rest |
| Tasks.Prerequisites | scripts/luigi_scripts/tasks.py:107-116 | an evaluation requires a tracking run on the very same parameters, and a tracking run requires nothing |
| Tasks.PrerequisiteSharesNames | scripts/luigi_scripts/tasks.py:107-116 | an evaluation and its tracking run share hash, database, directories and output basename, with the code's hash and with the corrected one |
| Tasks.ParamNamesDistinct | scripts/luigi_scripts/tasks.py:55-70 | no two task parameters share a name |
| Tasks.ToStrParamsInjective | scripts/luigi_scripts/tasks.py:55-70 | different parameters give different serialized items |
| Tasks.ConfigHashInputAsWritten | scripts/luigi_scripts/tasks.py:101-103 | as written, the hash input is the eight parameter names, sorted, and nothing else |
| Tasks.AsWrittenIgnoresValues | scripts/luigi_scripts/tasks.py:101-103 | as written, every task hashes the same input and so gets the same hash |
| Tasks.AsWrittenCollision | scripts/luigi_scripts/tasks.py:184-189 | two tracking runs that differ only in `cc_min_vertices` get the same output basename as written, although their canonical hash inputs differ |
| Tasks.CanonicalInput | scripts/luigi_scripts/tasks.py:101-103 | the corrected hash input is a permutation of the (name, value) items, sorted by name |
| Tasks.CanonicalPermutationInvariant | scripts/luigi_scripts/tasks.py:101-103 | any arrangement of the items sorts to the same input |
| Tasks.CanonicalInjective | scripts/luigi_scripts/tasks.py:101-103 | two tasks have the same corrected hash input exactly when all eight parameters agree |
| Tasks.DbNameLayout | scripts/luigi_scripts/tasks.py:93-99 | for a non-negative iteration the database name is `experiment_setup_<iteration div 1000>k` |
| Tasks.DbNameBucket | scripts/luigi_scripts/tasks.py:93-99 | within one experiment and setup, two tasks share a database exactly when their iterations truncate to the same thousand |
| Tasks.InputDataDirLayout | scripts/luigi_scripts/tasks.py:72-76 | from a base ending in a name and a relative experiment, the input data directory is `base/experiment/01_data`; setup and sample play no part |
| Tasks.TrainDirLayout | scripts/luigi_scripts/tasks.py:78-83 | from a base ending in a name and a relative experiment and setup, the training directory is `base/experiment/02_setups/setup`; the sample plays no part |
| Tasks.PredictDirLayout | scripts/luigi_scripts/tasks.py:85-91 | from a base ending in a name and a relative experiment and setup, the prediction directory is `base/experiment/03_predict/setup/<iteration>`, for any iteration, negative ones included |
| Tasks.OutputBasenameLayout | scripts/luigi_scripts/tasks.py:140-145 | from a base ending in a name and a relative experiment, setup and sample, the output basename is the prediction directory, then the sample, then the code's hash |
| Tasks.AbsoluteExperiment | scripts/luigi_scripts/tasks.py:72-91 | an absolute experiment name makes every directory independent of the base directory |
| Tasks.OutputBasenameSplit | scripts/luigi_scripts/tasks.py:184-189 | the last component of the output basename is the configuration hash, and splitting it off leaves the sample directory |
| Tasks.OutputBasenameAsWrittenShared | scripts/luigi_scripts/tasks.py:140-145 | with the code's hash, two tasks with slash-free experiment and setup names and relative samples (which may hold slashes, like the sample grid's `testing/sample_C…n5`) share an output basename exactly when they share the prediction directory and the sample, whatever their dictionary parameters |
| Tasks.OutputBasenameIdentifies | scripts/luigi_scripts/tasks.py:101-103 | with the corrected hash, and unless SHA-1 collides, two tasks with the same output basename have the same parameters, whatever the base directory and sample (absolute, empty or ending in a slash) |
| FanOut.Settings | scripts/luigi_scripts/tasks.py:220-226 | an accepted general configuration supplies its four fields exactly as found under their names |
| FanOut.Typed | scripts/luigi_scripts/tasks.py:55-64 | the four scalar values pass the kind check exactly when experiment, setup and sample are strings and iteration is an integer; otherwise the error names one of those four |
| FanOut.SettingsAccepts | scripts/luigi_scripts/tasks.py:220-226 | a general configuration is accepted exactly when its keys are the four scalar parameter names and their values have the right kinds |
| FanOut.SettingsErrors | scripts/luigi_scripts/tasks.py:220-226 | the reported error follows the order of the checks: duplicate keyword, then unknown parameter, then missing parameter, then wrong kind; it names a key that has the fault |
| FanOut.SettingsInjective | scripts/luigi_scripts/tasks.py:220-226 | accepted general configurations with the same key order and the same fields are equal |
| FanOut.MakeInjective | scripts/luigi_scripts/tasks.py:219-227 | different combinations whose general configurations list the same keys in the same order build different tasks (two orderings of one general dictionary build the same task) |
| FanOut.BuildTasks | scripts/luigi_scripts/tasks.py:211-229 | the loop succeeds exactly when every combination gives a task, and then returns one task per combination in order |
| FanOut.BuildTasksFirstError | scripts/luigi_scripts/tasks.py:211-229 | a failing loop reports the error of the first combination that gives no task |
| FanOut.FanLength | scripts/luigi_scripts/tasks.py:212-217 | the five-way product has as many combinations as the product of the five group sizes |
| FanOut.FanIndex | scripts/luigi_scripts/tasks.py:212-217 | the combination (g, d, p, o, s) sits at its mixed-radix position, with solve varying fastest |
| FanOut.RequiresSucceeds | scripts/luigi_scripts/tasks.py:203-229 | `requires` succeeds exactly when all groups expand and every combination's general configuration is accepted |
| FanOut.FanGenerals | scripts/luigi_scripts/tasks.py:212-226 | when no other group is empty, a dictionary is the general configuration of some combination exactly when it is one of the general configurations; so every combination passes the settings check exactly when every general configuration does |
| FanOut.RequiresSettings | scripts/luigi_scripts/tasks.py:203-229 | with no empty group, `requires` succeeds exactly when every general configuration is accepted |
| FanOut.RequiresCount | scripts/luigi_scripts/tasks.py:203-229 | `requires` returns the product of the five groups' configuration counts |
| FanOut.RequiresOrder | scripts/luigi_scripts/tasks.py:203-229 | the task at the mixed-radix position of (g, d, p, o, s) is built from those configurations |
| FanOut.RequiresMember | scripts/luigi_scripts/tasks.py:203-229 | a task is returned exactly when some combination builds it |
| FanOut.RequiresDistinct | scripts/luigi_scripts/tasks.py:203-229 | with repetition-free candidate lists, all tasks differ, and so do the tracking runs they require |
| SampleGrid.GeneralCount | scripts/grid_search_sample.py:16-24 | the sample's general group explodes to 2·2 = 4 configurations |
| SampleGrid.GeneralPartition | scripts/grid_search_sample.py:16-24 | setup and iteration are ranged; experiment and sample are passed through |
| SampleGrid.GeneralsAccepted | scripts/grid_search_sample.py:16-24 | every general configuration of the sample is accepted by `EvaluateTask` |
| SampleGrid.FixedGroups | scripts/grid_search_sample.py:26-39 | the data and output groups have no ranged key and stay as they are |
| SampleGrid.PreprocessingCount | scripts/grid_search_sample.py:30-33 | the preprocessing group explodes to 2 configurations |
| SampleGrid.SolveCount | scripts/grid_search_sample.py:41-44 | the solve group explodes to 3 configurations |
| SampleGrid.SampleExpands | scripts/grid_search_sample.py:16-53 | all five groups expand, to 4, 1, 2, 1 and 3 configurations |
| SampleGrid.GeneralDistinct | scripts/grid_search_sample.py:16-24 | the general group has distinct keys and repetition-free candidate lists |
| SampleGrid.OtherDistinct | scripts/grid_search_sample.py:26-44 | the other groups' candidate lists are repetition-free |
| SampleGrid.SampleTasks | scripts/grid_search_sample.py:16-62 | the sample grid yields 24 evaluation tasks, all different, and no two of them require the same tracking run |

## Left out

- **Luigi's scheduling.** Workers, the scheduler host, completion checks, `run()` and the `output()` targets (MongoDB documents and collections) are left out. They are I/O against a database and a cluster. The database name they use is modelled.
- **`mkdirs`, `call` and `gen_config`.** These are filesystem and process I/O.
- **SHA-1 and `repr`.** SHA-1 is a parameter, and the `repr` text of the hashed list is represented by the list itself. So `Tasks.OutputBasenameIdentifies` needs the assumption that SHA-1 does not collide on the two inputs.
- **JSON serialisation.** `to_str_params` JSON-encodes the dictionary parameters. The model represents each JSON text by the dictionary it encodes, and it keeps lists and tuples apart. Luigi's `DictParameter` freezes lists to tuples, and JSON writes both as arrays, so a dictionary holding a list and the same dictionary holding a tuple serialize alike. The model does not freeze lists, so `Tasks.ToStrParamsInjective` and `Tasks.CanonicalInjective` tell those two apart where the real serialization would not.
- **Floats.** The smoothing values 0.1 and 0.2 are opaque tokens.
- Tasks.DbNameLayout: `int(self.iteration/1000)` goes through a float. The model takes the exact quotient rounded toward zero, which differs only for iterations beyond 2^53.
- Text.TruncDiv: the same exact quotient in place of the float division; it differs from `int(a/1000)` only beyond 2^53.
- Tasks.DbNameBucket: rests on the same exact quotient, so its bucket boundaries hold only for iterations below 2^53.
- FanOut.Typed: rejects a value of the wrong kind. Luigi would convert it or keep it and fail later, so this rejection is a modelling choice, as for FanOut.Settings below.
- FanOut.Settings: a value of the wrong kind is rejected. Luigi would instead convert or keep it and fail later, in `IntParameter` parsing or in `os.path.join`, so the rejection is a modelling choice.
- FanOut.Settings: luigi can take a missing parameter from its configuration file. That file is not modelled, so a missing parameter is always an error.
- **The luigi instance cache.** Constructing the same task twice returns the same object. That is identity, not value, so it is left out.
- **`set_base_dir` and the default `base_dir`.** The default depends on the file's location. The model passes the base directory as an argument.
- **Exploding dictionary values.** `explode` iterates over a dictionary's keys, but the model has no dictionary values: nested groups are not modelled.

## Findings

| source | as written | input that shows it | evidently intended | confidence | as-written member | corrected member |
|---|---|---|---|---|---|---|
| scripts/luigi_scripts/tasks.py:101-103 | `sorted(self.to_str_params())` iterates over the dictionary's keys. The hash input is the eight parameter names, the same for every task, so every task gets the same `config_hash`. | two tracking runs that differ only in `cc_min_vertices` (4 and 5): same hash, same output basename, same MongoDB collection | hash the sorted (name, value) pairs, `sorted(self.to_str_params().items())`, so that different parameters give different hashes | high (not executed) | Tasks.AsWrittenCollision | Tasks.CanonicalInjective, Tasks.OutputBasenameIdentifies |

=== FILE: cross_product.dfy ===
/**
  `itertools.product(*pools)`: every tuple that takes one element from each
  pool, enumerated like nested loops with the first pool outermost.
 */
module CrossProduct {
  import opened Seqs

  /** The number of tuples: the product of the pool sizes (1 for no pools). */
  function Size<T>(pools: seq<seq<T>>): nat
  {
    if |pools| == 0 then 1 else |pools[0]| * Size(pools[1..])
  }

  /** Turns (head, tail) pairs into the tuples head :: tail. */
  function Cons<T>(ps: seq<(T, seq<T>)>): (r: seq<seq<T>>)
    ensures |r| == |ps|
    ensures forall n :: 0 <= n < |ps| ==> r[n] == [ps[n].0] + ps[n].1
  {
    seq(|ps|, n requires 0 <= n < |ps| => [ps[n].0] + ps[n].1)
  }

  function Product<T>(pools: seq<seq<T>>): seq<seq<T>>
    decreases |pools|
  {
    if |pools| == 0 then [[]]
    else Cons(Pairs(pools[0], Product(pools[1..])))
  }

  /** There are Size(pools) tuples. */
  lemma {:induction false} ProductLength<T>(pools: seq<seq<T>>)
    ensures |Product(pools)| == Size(pools)
    decreases |pools|
  {
    if |pools| > 0 {
      ProductLength(pools[1..]);
      PairsLength(pools[0], Product(pools[1..]));
    }
  }

  /** Only tuples that pick one element of every pool are produced. */
  lemma {:induction false} ProductSound<T>(pools: seq<seq<T>>, t: seq<T>)
    requires t in Product(pools)
    ensures |t| == |pools| && forall k :: 0 <= k < |t| ==> t[k] in pools[k]
    decreases |pools|
  {
    if |pools| > 0 {
      var tail := Product(pools[1..]);
      var ps := Pairs(pools[0], tail);
      var n :| 0 <= n < |ps| && Product(pools)[n] == t;
      assert t[0] == ps[n].0 && t[1..] == ps[n].1;
      PairsMember(pools[0], tail, ps[n].0, ps[n].1);
      ProductSound(pools[1..], t[1..]);
      forall k | 0 <= k < |t|
        ensures t[k] in pools[k]
      {
        if k > 0 {
          assert t[k] == t[1..][k - 1];
        }
      }
    }
  }

  /** Every tuple that picks one element of every pool is produced. */
  lemma {:induction false} ProductComplete<T>(pools: seq<seq<T>>, t: seq<T>)
    requires |t| == |pools| && forall k :: 0 <= k < |t| ==> t[k] in pools[k]
    ensures t in Product(pools)
    decreases |pools|
  {
    if |pools| > 0 {
      var tail := Product(pools[1..]);
      var ps := Pairs(pools[0], tail);
      forall k | 0 <= k < |t[1..]|
        ensures t[1..][k] in pools[1..][k]
      {
        assert t[1..][k] == t[k + 1];
      }
      ProductComplete(pools[1..], t[1..]);
      PairsMember(pools[0], tail, t[0], t[1..]);
      var n :| 0 <= n < |ps| && ps[n] == (t[0], t[1..]);
      assert Product(pools)[n] == [t[0]] + t[1..] == t;
    }
  }

  /** A tuple is produced exactly when it picks one element of every pool. */
  lemma ProductMember<T>(pools: seq<seq<T>>, t: seq<T>)
    ensures t in Product(pools) <==>
              |t| == |pools| && forall k :: 0 <= k < |t| ==> t[k] in pools[k]
  {
    if t in Product(pools) {
      ProductSound(pools, t);
    }
    if |t| == |pools| && forall k :: 0 <= k < |t| ==> t[k] in pools[k] {
      ProductComplete(pools, t);
    }
  }

  /** Nested-loop order: the product opens with the first element of the
      first pool joined, in order, to every tuple of the remaining pools; the
      product over the rest of the first pool follows. */
  lemma ProductOrder<T>(pools: seq<seq<T>>)
    requires |pools| > 0 && |pools[0]| > 0
    ensures Product(pools) ==
              Cons(Row(pools[0][0], Product(pools[1..])))
              + Product([pools[0][1..]] + pools[1..])
  {
    var tail := Product(pools[1..]);
    var rest := [pools[0][1..]] + pools[1..];
    assert rest[1..] == pools[1..];
    var a := Row(pools[0][0], tail);
    var b := Pairs(pools[0][1..], tail);
    assert Product(pools) == Cons(a + b);
    assert Product(rest) == Cons(b);
    assert Cons(a + b) == Cons(a) + Cons(b);
  }

  /** The product over a first pool splits into the tuples that take its
      first element, followed by those that take a later one. */
  lemma ProductSplitFirst<T>(vs: seq<T>, tail: seq<seq<T>>)
    requires |vs| > 0
    ensures Product([vs] + tail) == Product([[vs[0]]] + tail) + Product([vs[1..]] + tail)
  {
    var single := [[vs[0]]] + tail;
    ProductOrder([vs] + tail);
    ProductOrder(single);
    assert ([vs] + tail)[1..] == tail && single[1..] == tail;
    assert [single[0][1..]] + tail == [[]] + tail;
    assert Product([[]] + tail) == [];
  }

  /** `idx` picks one position in every pool. */
  predicate ValidIndex<T>(pools: seq<seq<T>>, idx: seq<nat>)
  {
    |idx| == |pools| && forall k :: 0 <= k < |pools| ==> idx[k] < |pools[k]|
  }

  /** The tuple that takes `pools[k][idx[k]]` from every pool. */
  function Pick<T>(pools: seq<seq<T>>, idx: seq<nat>): (r: seq<T>)
    requires ValidIndex(pools, idx)
    ensures |r| == |pools|
    ensures forall k :: 0 <= k < |pools| ==> r[k] == pools[k][idx[k]]
  {
    seq(|pools|, k requires 0 <= k < |pools| => pools[k][idx[k]])
  }

  /** The mixed-radix number whose k-th digit is `idx[k]` in base
      `|pools[k]|`, the last digit counting fastest. */
  function Rank<T>(pools: seq<seq<T>>, idx: seq<nat>): nat
    requires |idx| == |pools|
    decreases |pools|
  {
    if |pools| == 0 then 0 else idx[0] * Size(pools[1..]) + Rank(pools[1..], idx[1..])
  }

  lemma PickTail<T>(pools: seq<seq<T>>, idx: seq<nat>)
    requires |pools| > 0 && ValidIndex(pools, idx)
    ensures ValidIndex(pools[1..], idx[1..])
    ensures Pick(pools, idx) == [pools[0][idx[0]]] + Pick(pools[1..], idx[1..])
  {
    assert forall k :: 0 <= k < |pools| - 1 ==> idx[1..][k] == idx[k + 1];
  }

  /** Nested-loop order, in full: the tuple picking `idx[k]` from every pool
      sits at the mixed-radix position of `idx`. */
  lemma {:induction false} ProductIndex<T>(pools: seq<seq<T>>, idx: seq<nat>)
    requires ValidIndex(pools, idx)
    ensures Rank(pools, idx) < |Product(pools)|
    ensures Product(pools)[Rank(pools, idx)] == Pick(pools, idx)
    decreases |pools|
  {
    if |pools| > 0 {
      var tail := Product(pools[1..]);
      PickTail(pools, idx);
      ProductIndex(pools[1..], idx[1..]);
      ProductLength(pools[1..]);
      var j := Rank(pools[1..], idx[1..]);
      PairsIndex(pools[0], tail, idx[0], j);
      assert Product(pools)[idx[0] * |tail| + j] == [pools[0][idx[0]]] + tail[j];
    }
  }

  /** Every position of the product is the mixed-radix position of the
      choice it holds. */
  lemma {:induction false} ProductAt<T>(pools: seq<seq<T>>, n: nat) returns (idx: seq<nat>)
    requires n < |Product(pools)|
    ensures ValidIndex(pools, idx) && Rank(pools, idx) == n
    ensures Product(pools)[n] == Pick(pools, idx)
    decreases |pools|
  {
    if |pools| == 0 {
      idx := [];
    } else {
      var tail := Product(pools[1..]);
      ProductLength(pools[1..]);
      var i, j := PairsAt(pools[0], tail, n);
      var rest := ProductAt(pools[1..], j);
      idx := [i] + rest;
      assert idx[1..] == rest;
      PickTail(pools, idx);
    }
  }

  /** Pools without repetitions give tuples without repetitions. */
  lemma {:induction false} ProductDistinct<T>(pools: seq<seq<T>>)
    requires forall k :: 0 <= k < |pools| ==> Distinct(pools[k])
    ensures Distinct(Product(pools))
    decreases |pools|
  {
    if |pools| > 0 {
      var tail := Product(pools[1..]);
      ProductDistinct(pools[1..]);
      PairsDistinct(pools[0], tail);
      var ps := Pairs(pools[0], tail);
      var r := Product(pools);
      forall n, m | 0 <= n < m < |r|
        ensures r[n] != r[m]
      {
        var a, b := ps[n], ps[m];
        assert a != b;
        if a.0 != b.0 {
          assert r[n][0] == a.0 && r[m][0] == b.0;
        } else {
          assert r[n][1..] == a.1 && r[m][1..] == b.1;
        }
      }
    }
  }

  /** No tuples at all exactly when some pool is empty. */
  lemma {:induction false} SizeZero<T>(pools: seq<seq<T>>)
    ensures Size(pools) == 0 <==> exists k :: 0 <= k < |pools| && |pools[k]| == 0
    decreases |pools|
  {
    if |pools| > 0 {
      SizeZero(pools[1..]);
      if Size(pools) == 0 && |pools[0]| != 0 {
        assert Size(pools[1..]) == 0;
        var k :| 0 <= k < |pools[1..]| && |pools[1..][k]| == 0;
        assert |pools[k + 1]| == 0;
      }
      if exists k :: 0 <= k < |pools| && |pools[k]| == 0 {
        var k :| 0 <= k < |pools| && |pools[k]| == 0;
        if k > 0 {
          assert |pools[1..][k - 1]| == 0;
        }
      }
    }
  }
}

=== FILE: fan_out.dfy ===
/**
  `EvaluateCombinations.requires`: the five parameter groups are expanded
  independently and one `EvaluateTask` is built for every combination of
  one configuration per group, the general group outermost and the solve
  group innermost.
 */
module FanOut {
  import opened Params
  import opened Seqs
  import opened GridExpansion
  import opened Tasks

  /** The parameters of `EvaluateCombinations`. */
  datatype Grid = Grid(
    general: Dict,
    data: Dict,
    preprocessing: Dict,
    output: Dict,
    solve: Dict,
    rangeKeys: seq<string>)

  /** The scalar parameters a general configuration supplies. */
  datatype General = General(experiment: string, setup: string, iteration: int, sample: string)

  /** One configuration of each group: general, data, preprocessing, output,
      solve. The five-way product is built from two-way products, so a
      combination is a nested pair; the functions below name its parts. */
  type Combo = (Dict, (Dict, (Dict, (Dict, Dict))))

  function GeneralOf(c: Combo): Dict { c.0 }
  function DataOf(c: Combo): Dict { c.1.0 }
  function PreprocessingOf(c: Combo): Dict { c.1.1.0 }
  function OutputOf(c: Combo): Dict { c.1.1.1.0 }
  function SolveOf(c: Combo): Dict { c.1.1.1.1 }

  /** The position of the first element of `xs` whose membership in `ys`
      is `inside`, or |xs| when there is none. */
  function FirstWith(xs: seq<string>, ys: seq<string>, inside: bool): (r: nat)
    ensures r <= |xs|
    ensures forall h :: 0 <= h < r ==> (xs[h] in ys) != inside
    ensures r < |xs| ==> (xs[r] in ys) == inside
    decreases |xs|
  {
    if |xs| == 0 then 0
    else if (xs[0] in ys) == inside then 0
    else
      var r := FirstWith(xs[1..], ys, inside);
      assert forall h :: 1 <= h < |xs| ==> xs[h] == xs[1..][h - 1];
      r + 1
  }

  /** All four scalar parameters are present with values of the right kind. */
  predicate WellTyped(g: Dict)
  {
    && Get(g, "experiment").Some? && Get(g, "experiment").value.Str?
    && Get(g, "setup").Some? && Get(g, "setup").value.Str?
    && Get(g, "iteration").Some? && Get(g, "iteration").value.Int?
    && Get(g, "sample").Some? && Get(g, "sample").value.Str?
  }

  /** The kind of each scalar value, checked in declaration order. */
  function Typed(g: Dict): (r: Result<General>)
    ensures r.Success? <==> WellTyped(g)
    ensures r.Failure? ==> r.error.WrongType? && r.error.key in GeneralNames
    ensures r.Success? ==>
              && Get(g, "experiment") == Some(Str(r.value.experiment))
              && Get(g, "setup") == Some(Str(r.value.setup))
              && Get(g, "iteration") == Some(Int(r.value.iteration))
              && Get(g, "sample") == Some(Str(r.value.sample))
  {
    var experiment, setup := Get(g, "experiment"), Get(g, "setup");
    var iteration, sample := Get(g, "iteration"), Get(g, "sample");
    if !(experiment.Some? && experiment.value.Str?) then Failure(WrongType("experiment"))
    else if !(setup.Some? && setup.value.Str?) then Failure(WrongType("setup"))
    else if !(iteration.Some? && iteration.value.Int?) then Failure(WrongType("iteration"))
    else if !(sample.Some? && sample.value.Str?) then Failure(WrongType("sample"))
    else Success(General(experiment.value.s, setup.value.s, iteration.value.i, sample.value.s))
  }

  /** What `EvaluateTask(**g, data_parameters=..., ...)` makes of the general
      configuration `g`, with the checks in the order they happen: the first
      dictionary parameter that `g` also supplies (Python's keyword merge),
      the first key of `g` that is no parameter (luigi, in argument order),
      the first scalar parameter nobody supplied (luigi, in declaration
      order), and finally the kind of each scalar value. */
  function Settings(g: Dict): (r: Result<General>)
    ensures r.Success? ==>
              && Get(g, "experiment") == Some(Str(r.value.experiment))
              && Get(g, "setup") == Some(Str(r.value.setup))
              && Get(g, "iteration") == Some(Int(r.value.iteration))
              && Get(g, "sample") == Some(Str(r.value.sample))
  {
    var dup := FirstWith(DictParamNames, Keys(g), true);
    var unknown := FirstWith(Keys(g), ParamNames, false);
    var missing := FirstWith(GeneralNames, Keys(g), false);
    if dup < |DictParamNames| then Failure(DuplicateArgument(DictParamNames[dup]))
    else if unknown < |g| then Failure(UnknownParameter(g[unknown].key))
    else if missing < |GeneralNames| then Failure(MissingParameter(GeneralNames[missing]))
    else Typed(g)
  }

  /** A general configuration is accepted exactly when its keys are the
      four scalar parameter names and their values have the right kind. */
  lemma SettingsAccepts(g: Dict)
    ensures Settings(g).Success? <==>
              && (forall i :: 0 <= i < |g| ==> g[i].key in GeneralNames)
              && (forall j :: 0 <= j < |GeneralNames| ==> GeneralNames[j] in Keys(g))
              && WellTyped(g)
  {
    var dup := FirstWith(DictParamNames, Keys(g), true);
    var unknown := FirstWith(Keys(g), ParamNames, false);
    var missing := FirstWith(GeneralNames, Keys(g), false);
    if forall i :: 0 <= i < |g| ==> g[i].key in GeneralNames {
      assert dup == |DictParamNames|;
      assert unknown == |g|;
    }
    if Settings(g).Success? {
      forall i | 0 <= i < |g|
        ensures g[i].key in GeneralNames
      {
        assert Keys(g)[i] in ParamNames;
      }
    }
  }

  /** The reported error follows the order of the checks: a dictionary
      parameter name among the keys wins over an unknown key, which wins
      over a missing scalar parameter, which wins over a value of the wrong
      kind. */
  lemma SettingsErrors(g: Dict)
    requires Settings(g).Failure?
    ensures var e := Settings(g).error;
            && (e.DuplicateArgument? <==> exists h :: 0 <= h < |DictParamNames| && DictParamNames[h] in Keys(g))
            && (e.DuplicateArgument? ==> e.key in DictParamNames && e.key in Keys(g))
            && (e.UnknownParameter? ==> e.key in Keys(g) && e.key !in ParamNames)
            && (e.MissingParameter? ==> e.key in GeneralNames && e.key !in Keys(g)
                                        && forall i :: 0 <= i < |g| ==> g[i].key in ParamNames)
            && (e.WrongType? ==> e.key in GeneralNames && !WellTyped(g)
                                 && (forall i :: 0 <= i < |g| ==> g[i].key in ParamNames)
                                 && forall j :: 0 <= j < |GeneralNames| ==> GeneralNames[j] in Keys(g))
            && !e.NotIterable?
  {
    var dup := FirstWith(DictParamNames, Keys(g), true);
    if exists h :: 0 <= h < |DictParamNames| && DictParamNames[h] in Keys(g) {
      var h :| 0 <= h < |DictParamNames| && DictParamNames[h] in Keys(g);
      assert dup <= h;
    }
    var unknown := FirstWith(Keys(g), ParamNames, false);
    if unknown == |g| {
      assert forall i :: 0 <= i < |g| ==> Keys(g)[i] in ParamNames;
    }
  }

  /** The evaluation task for one combination. */
  function MakeEvaluateTask(c: Combo): (r: Result<Task>)
    ensures r.Success? <==> Settings(GeneralOf(c)).Success?
    ensures r.Success? ==>
              var s := Settings(GeneralOf(c)).value;
              r.value == Task(Evaluate, MtrackParams(s.experiment, s.setup, s.iteration, s.sample,
                                                     DataOf(c), PreprocessingOf(c), OutputOf(c), SolveOf(c)))
  {
    var s :- Settings(GeneralOf(c));
    Success(Task(Evaluate, MtrackParams(s.experiment, s.setup, s.iteration, s.sample,
                                        DataOf(c), PreprocessingOf(c), OutputOf(c), SolveOf(c))))
  }

  /** The loop body of `requires`, over all combinations in order; the first
      combination that cannot be turned into a task stops it. */
  function BuildTasks(combos: seq<Combo>): (r: Result<seq<Task>>)
    ensures r.Success? <==> forall n :: 0 <= n < |combos| ==> MakeEvaluateTask(combos[n]).Success?
    ensures r.Success? ==>
              && |r.value| == |combos|
              && forall n :: 0 <= n < |combos| ==> Success(r.value[n]) == MakeEvaluateTask(combos[n])
  {
    MapResult(MakeEvaluateTask, combos)
  }

  /** When the loop stops, it stops at the first combination that cannot
      be turned into a task, and reports that combination's error. */
  lemma BuildTasksFirstError(combos: seq<Combo>) returns (n: nat)
    requires BuildTasks(combos).Failure?
    ensures n < |combos| && MakeEvaluateTask(combos[n]) == Failure(BuildTasks(combos).error)
    ensures forall m :: 0 <= m < n ==> MakeEvaluateTask(combos[m]).Success?
  {
    n := MapResultFirstError(MakeEvaluateTask, combos);
  }

  /** The five-way product, general outermost and solve innermost. */
  function Fan(gs: seq<Dict>, ds: seq<Dict>, ps: seq<Dict>, os: seq<Dict>, ss: seq<Dict>): seq<Combo>
  {
    Pairs(gs, Pairs(ds, Pairs(ps, Pairs(os, ss))))
  }

  /** `EvaluateCombinations.requires()`: the groups are expanded in the
      order general, data, preprocessing, output, solve, and the first
      failure is the result. */
  function Requires(grid: Grid): Result<seq<Task>>
  {
    var gs :- Explode(grid.general, grid.rangeKeys);
    var ds :- Explode(grid.data, grid.rangeKeys);
    var ps :- Explode(grid.preprocessing, grid.rangeKeys);
    var os :- Explode(grid.output, grid.rangeKeys);
    var ss :- Explode(grid.solve, grid.rangeKeys);
    BuildTasks(Fan(gs, ds, ps, os, ss))
  }

  /** All five groups expand. */
  predicate Expands(grid: Grid)
  {
    && Explode(grid.general, grid.rangeKeys).Success?
    && Explode(grid.data, grid.rangeKeys).Success?
    && Explode(grid.preprocessing, grid.rangeKeys).Success?
    && Explode(grid.output, grid.rangeKeys).Success?
    && Explode(grid.solve, grid.rangeKeys).Success?
  }

  function Generals(grid: Grid): seq<Dict>
    requires Expands(grid)
  {
    Explode(grid.general, grid.rangeKeys).value
  }

  function FanOf(grid: Grid): seq<Combo>
    requires Expands(grid)
  {
    Fan(Explode(grid.general, grid.rangeKeys).value, Explode(grid.data, grid.rangeKeys).value,
        Explode(grid.preprocessing, grid.rangeKeys).value, Explode(grid.output, grid.rangeKeys).value,
        Explode(grid.solve, grid.rangeKeys).value)
  }

  // ---------------------------------------------------------------------
  // Shape of the five-way product

  /** The product has |gs|·|ds|·|ps|·|os|·|ss| combinations. */
  lemma FanLength(gs: seq<Dict>, ds: seq<Dict>, ps: seq<Dict>, os: seq<Dict>, ss: seq<Dict>)
    ensures |Fan(gs, ds, ps, os, ss)| == |gs| * (|ds| * (|ps| * (|os| * |ss|)))
  {
    PairsLength(os, ss);
    PairsLength(ps, Pairs(os, ss));
    PairsLength(ds, Pairs(ps, Pairs(os, ss)));
    PairsLength(gs, Pairs(ds, Pairs(ps, Pairs(os, ss))));
  }

  /** The position of a combination in mixed radix, the solve group being
      the least significant digit. */
  function Position(g: nat, d: nat, p: nat, o: nat, s: nat,
                    nd: nat, np: nat, no: nat, ns: nat): nat
  {
    g * (nd * (np * (no * ns))) + (d * (np * (no * ns)) + (p * (no * ns) + (o * ns + s)))
  }

  /** Nested-loop order of the five-way product. */
  lemma FanIndex(gs: seq<Dict>, ds: seq<Dict>, ps: seq<Dict>, os: seq<Dict>, ss: seq<Dict>,
                 g: nat, d: nat, p: nat, o: nat, s: nat)
    requires g < |gs| && d < |ds| && p < |ps| && o < |os| && s < |ss|
    ensures var n := Position(g, d, p, o, s, |ds|, |ps|, |os|, |ss|);
            && n < |Fan(gs, ds, ps, os, ss)|
            && Fan(gs, ds, ps, os, ss)[n] == (gs[g], (ds[d], (ps[p], (os[o], ss[s]))))
  {
    var x3 := Pairs(os, ss);
    var x2 := Pairs(ps, x3);
    var x1 := Pairs(ds, x2);
    var x0 := Pairs(gs, x1);
    var j3 := o * |ss| + s;
    assert j3 < |x3| && x3[j3] == (os[o], ss[s]) by {
      PairsIndex(os, ss, o, s);
    }
    var j2 := p * |x3| + j3;
    assert j2 < |x2| && x2[j2] == (ps[p], x3[j3]) by {
      PairsIndex(ps, x3, p, j3);
    }
    var j1 := d * |x2| + j2;
    assert j1 < |x1| && x1[j1] == (ds[d], x2[j2]) by {
      PairsIndex(ds, x2, d, j2);
    }
    var j0 := g * |x1| + j1;
    assert j0 < |x0| && x0[j0] == (gs[g], x1[j1]) by {
      PairsIndex(gs, x1, g, j1);
    }
    assert |x3| == |os| * |ss| by {
      PairsLength(os, ss);
    }
    assert |x2| == |ps| * |x3| by {
      PairsLength(ps, x3);
    }
    assert |x1| == |ds| * |x2| by {
      PairsLength(ds, x2);
    }
    assert Position(g, d, p, o, s, |ds|, |ps|, |os|, |ss|) == j0;
  }

  // ---------------------------------------------------------------------
  // Properties of `requires`

  /** `requires` is the loop over the five-way product once all groups
      have expanded, and a failure otherwise. */
  lemma RequiresUnfold(grid: Grid)
    ensures Expands(grid) ==> Requires(grid) == BuildTasks(FanOf(grid))
    ensures !Expands(grid) ==> Requires(grid).Failure?
  {
  }

  /** `requires` fails only where an expansion fails or where a general
      configuration is rejected; it succeeds exactly when every combination
      gives a task. */
  lemma RequiresSucceeds(grid: Grid)
    ensures Requires(grid).Success? <==>
              Expands(grid) && forall n :: 0 <= n < |FanOf(grid)| ==> Settings(GeneralOf(FanOf(grid)[n])).Success?
  {
    RequiresUnfold(grid);
  }

  /** Every general configuration that occurs in some combination must be
      accepted; when all groups expand and none is empty, that is every
      general configuration. */
  lemma RequiresSettings(grid: Grid)
    requires Expands(grid)
    requires |Explode(grid.data, grid.rangeKeys).value| > 0
    requires |Explode(grid.preprocessing, grid.rangeKeys).value| > 0
    requires |Explode(grid.output, grid.rangeKeys).value| > 0
    requires |Explode(grid.solve, grid.rangeKeys).value| > 0
    ensures Requires(grid).Success? <==> forall g :: g in Generals(grid) ==> Settings(g).Success?
  {
    RequiresSucceeds(grid);
    FanGenerals(Generals(grid), Explode(grid.data, grid.rangeKeys).value,
                Explode(grid.preprocessing, grid.rangeKeys).value,
                Explode(grid.output, grid.rangeKeys).value, Explode(grid.solve, grid.rangeKeys).value);
  }

  /** When no other group is empty, every general configuration occurs in
      some combination, and only those do; so all combinations pass the
      settings check exactly when all general configurations do. */
  lemma FanGenerals(gs: seq<Dict>, ds: seq<Dict>, ps: seq<Dict>, os: seq<Dict>, ss: seq<Dict>)
    requires |ds| > 0 && |ps| > 0 && |os| > 0 && |ss| > 0
    ensures forall g :: g in gs <==>
              exists n :: 0 <= n < |Fan(gs, ds, ps, os, ss)| && GeneralOf(Fan(gs, ds, ps, os, ss)[n]) == g
    ensures (forall n :: 0 <= n < |Fan(gs, ds, ps, os, ss)| ==> Settings(GeneralOf(Fan(gs, ds, ps, os, ss)[n])).Success?)
            <==> (forall g :: g in gs ==> Settings(g).Success?)
  {
    var fan := Fan(gs, ds, ps, os, ss);
    forall g
      ensures g in gs <==> exists n :: 0 <= n < |fan| && GeneralOf(fan[n]) == g
    {
      if g in gs {
        var i :| 0 <= i < |gs| && gs[i] == g;
        FanIndex(gs, ds, ps, os, ss, i, 0, 0, 0, 0);
        var n := Position(i, 0, 0, 0, 0, |ds|, |ps|, |os|, |ss|);
        assert GeneralOf(fan[n]) == g;
      }
      if exists n :: 0 <= n < |fan| && GeneralOf(fan[n]) == g {
        var n :| 0 <= n < |fan| && GeneralOf(fan[n]) == g;
        var i, _ := PairsAt(gs, Pairs(ds, Pairs(ps, Pairs(os, ss))), n);
      }
    }
  }

  /** `requires` returns |G|·|D|·|P|·|O|·|S| tasks, where G … S are the
      configurations of the five groups. */
  lemma RequiresCount(grid: Grid)
    requires Requires(grid).Success?
    ensures Expands(grid)
    ensures |Requires(grid).value| ==
              |Explode(grid.general, grid.rangeKeys).value|
              * (|Explode(grid.data, grid.rangeKeys).value|
                 * (|Explode(grid.preprocessing, grid.rangeKeys).value|
                    * (|Explode(grid.output, grid.rangeKeys).value|
                       * |Explode(grid.solve, grid.rangeKeys).value|)))
  {
    FanLength(Generals(grid), Explode(grid.data, grid.rangeKeys).value,
              Explode(grid.preprocessing, grid.rangeKeys).value,
              Explode(grid.output, grid.rangeKeys).value, Explode(grid.solve, grid.rangeKeys).value);
  }

  /** The task at mixed-radix position (g, d, p, o, s) is built from the
      g-th general, d-th data, p-th preprocessing, o-th output and s-th solve
      configuration: general varies slowest, solve fastest. */
  lemma RequiresOrder(grid: Grid, g: nat, d: nat, p: nat, o: nat, s: nat)
    requires Requires(grid).Success?
    ensures Expands(grid)
    ensures var gs := Explode(grid.general, grid.rangeKeys).value;
            var ds := Explode(grid.data, grid.rangeKeys).value;
            var ps := Explode(grid.preprocessing, grid.rangeKeys).value;
            var os := Explode(grid.output, grid.rangeKeys).value;
            var ss := Explode(grid.solve, grid.rangeKeys).value;
            g < |gs| && d < |ds| && p < |ps| && o < |os| && s < |ss| ==>
              var n := Position(g, d, p, o, s, |ds|, |ps|, |os|, |ss|);
              && n < |Requires(grid).value|
              && Success(Requires(grid).value[n]) == MakeEvaluateTask((gs[g], (ds[d], (ps[p], (os[o], ss[s])))))
  {
    var gs := Explode(grid.general, grid.rangeKeys).value;
    var ds := Explode(grid.data, grid.rangeKeys).value;
    var ps := Explode(grid.preprocessing, grid.rangeKeys).value;
    var os := Explode(grid.output, grid.rangeKeys).value;
    var ss := Explode(grid.solve, grid.rangeKeys).value;
    if g < |gs| && d < |ds| && p < |ps| && o < |os| && s < |ss| {
      FanIndex(gs, ds, ps, os, ss, g, d, p, o, s);
    }
  }

  /** A task is produced exactly when it is built from one configuration of
      each group. */
  lemma RequiresMember(grid: Grid, t: Task)
    requires Requires(grid).Success?
    ensures Expands(grid)
    ensures t in Requires(grid).value <==>
              exists c :: c in FanOf(grid) && MakeEvaluateTask(c) == Success(t)
  {
  }

  // ---------------------------------------------------------------------
  // Distinct tasks

  /** Accepted general configurations with the same key order and the same
      settings are equal. */
  lemma SettingsInjective(g1: Dict, g2: Dict)
    requires WellFormed(g1) && WellFormed(g2) && Keys(g1) == Keys(g2)
    requires Settings(g1).Success? && Settings(g1) == Settings(g2)
    ensures g1 == g2
  {
    SettingsAccepts(g1);
    ScalarDictsAgree(g1, g2);
  }

  /** Two well-formed dictionaries with the same key order, holding only the
      scalar parameter names and the same value under each, are equal. */
  lemma ScalarDictsAgree(g1: Dict, g2: Dict)
    requires WellFormed(g1) && WellFormed(g2) && Keys(g1) == Keys(g2)
    requires forall i :: 0 <= i < |g1| ==> g1[i].key in GeneralNames
    requires Get(g1, "experiment") == Get(g2, "experiment")
    requires Get(g1, "setup") == Get(g2, "setup")
    requires Get(g1, "iteration") == Get(g2, "iteration")
    requires Get(g1, "sample") == Get(g2, "sample")
    ensures g1 == g2
  {
    forall m | 0 <= m < |g1|
      ensures g1[m] == g2[m]
    {
      var k := g1[m].key;
      assert k == Keys(g1)[m] && k == g2[m].key;
      ScalarName(k);
      EntryAgrees(g1, g2, m);
    }
  }

  lemma ScalarName(k: string)
    requires k in GeneralNames
    ensures k == "experiment" || k == "setup" || k == "iteration" || k == "sample"
  {
  }

  /** In well-formed dictionaries an entry is determined by its key's value. */
  lemma EntryAgrees(g1: Dict, g2: Dict, m: nat)
    requires WellFormed(g1) && WellFormed(g2) && m < |g1| && m < |g2|
    requires g1[m].key == g2[m].key && Get(g1, g1[m].key) == Get(g2, g1[m].key)
    ensures g1[m] == g2[m]
  {
    GetEntry(g1, m);
    GetEntry(g2, m);
  }

  /** Combinations that differ somewhere give different tasks, provided the
      general configurations share their key order. */
  lemma MakeInjective(c1: Combo, c2: Combo)
    requires WellFormed(GeneralOf(c1)) && WellFormed(GeneralOf(c2)) && Keys(GeneralOf(c1)) == Keys(GeneralOf(c2))
    requires MakeEvaluateTask(c1).Success? && MakeEvaluateTask(c1) == MakeEvaluateTask(c2)
    ensures c1 == c2
  {
    SettingsInjective(GeneralOf(c1), GeneralOf(c2));
  }

  /** Groups whose ranged candidate lists have no repetitions. */
  predicate DistinctRanges(group: Dict, rangeKeys: seq<string>)
  {
    forall e :: e in group && e.key in rangeKeys ==> DistinctCandidates(e.value)
  }

  /** With well-formed groups and repetition-free candidate lists, all tasks
      are different, and so are the tracking runs they require: nothing is
      shared between evaluations. */
  lemma RequiresDistinct(grid: Grid)
    requires Requires(grid).Success?
    requires WellFormed(grid.general)
    requires DistinctRanges(grid.general, grid.rangeKeys) && DistinctRanges(grid.data, grid.rangeKeys)
    requires DistinctRanges(grid.preprocessing, grid.rangeKeys) && DistinctRanges(grid.output, grid.rangeKeys)
    requires DistinctRanges(grid.solve, grid.rangeKeys)
    ensures Distinct(Requires(grid).value)
    ensures forall i, j :: 0 <= i < j < |Requires(grid).value| ==>
              Prerequisites(Requires(grid).value[i]) != Prerequisites(Requires(grid).value[j])
  {
    var gs := Explode(grid.general, grid.rangeKeys).value;
    var ds := Explode(grid.data, grid.rangeKeys).value;
    var ps := Explode(grid.preprocessing, grid.rangeKeys).value;
    var os := Explode(grid.output, grid.rangeKeys).value;
    var ss := Explode(grid.solve, grid.rangeKeys).value;
    ExplodeDistinct(grid.general, grid.rangeKeys);
    ExplodeDistinct(grid.data, grid.rangeKeys);
    ExplodeDistinct(grid.preprocessing, grid.rangeKeys);
    ExplodeDistinct(grid.output, grid.rangeKeys);
    ExplodeDistinct(grid.solve, grid.rangeKeys);
    PairsDistinct(os, ss);
    PairsDistinct(ps, Pairs(os, ss));
    PairsDistinct(ds, Pairs(ps, Pairs(os, ss)));
    PairsDistinct(gs, Pairs(ds, Pairs(ps, Pairs(os, ss))));
    var fan := Fan(gs, ds, ps, os, ss);
    var tasks := Requires(grid).value;
    forall i, j | 0 <= i < j < |tasks|
      ensures tasks[i] != tasks[j]
      ensures Prerequisites(tasks[i]) != Prerequisites(tasks[j])
    {
      var a, b := fan[i], fan[j];
      assert a != b;
      PairsMember(gs, Pairs(ds, Pairs(ps, Pairs(os, ss))), a.0, a.1);
      PairsMember(gs, Pairs(ds, Pairs(ps, Pairs(os, ss))), b.0, b.1);
      ExplodeWellFormed(grid.general, grid.rangeKeys, GeneralOf(a));
      ExplodeWellFormed(grid.general, grid.rangeKeys, GeneralOf(b));
      if tasks[i] == tasks[j] {
        MakeInjective(a, b);
      }
      assert Prerequisites(tasks[i])[0].params == tasks[i].params;
      assert Prerequisites(tasks[j])[0].params == tasks[j].params;
    }
  }
}

=== FILE: grid_expansion.dfy ===
/**
  `EvaluateCombinations.explode`: one parameter group is split into the
  entries named by the range keys and the others; every combination that
  picks one candidate for each ranged entry becomes one concrete dictionary,
  holding the ranged entries first and then the other entries unchanged.
 */
module GridExpansion {
  import opened Params
  import opened Seqs
  import opened CrossProduct

  /** The entries whose key is a range key (`ranged`) or is not (`!ranged`),
      in the group's insertion order. */
  function Partition(d: Dict, rangeKeys: seq<string>, ranged: bool): (r: Dict)
    ensures |r| <= |d|
    decreases |d|
  {
    if |d| == 0 then []
    else if (d[0].key in rangeKeys) == ranged then [d[0]] + Partition(d[1..], rangeKeys, ranged)
    else Partition(d[1..], rangeKeys, ranged)
  }

  /** The candidate list of each ranged entry, in order; the first value that
      cannot be iterated stops the expansion, as the product's TypeError does. */
  function Pools(ranged: Dict): (r: Result<seq<seq<Value>>>)
    ensures r.Success? <==> forall k :: 0 <= k < |ranged| ==> Iterate(ranged[k].value).Some?
    ensures r.Success? ==>
              && |r.value| == |ranged|
              && forall k :: 0 <= k < |ranged| ==> Iterate(ranged[k].value) == Some(r.value[k])
    ensures r.Failure? ==>
              exists k :: 0 <= k < |ranged| && Iterate(ranged[k].value).None?
                          && r.error == NotIterable(ranged[k].key)
    decreases |ranged|
  {
    if |ranged| == 0 then Success([])
    else
      match Iterate(ranged[0].value)
      case None => Failure(NotIterable(ranged[0].key))
      case Some(vs) =>
        match Pools(ranged[1..])
        case Failure(e) => Failure(e)
        case Success(rest) => Success([vs] + rest)
  }

  /** `dict(zip(keys, values))`; like `zip`, it stops at the shorter input. */
  function Zip(keys: seq<string>, values: seq<Value>): (r: Dict)
    ensures |r| == if |keys| <= |values| then |keys| else |values|
    ensures forall i :: 0 <= i < |r| ==> r[i] == Entry(keys[i], values[i])
  {
    var n := if |keys| <= |values| then |keys| else |values|;
    seq(n, i requires 0 <= i < n => Entry(keys[i], values[i]))
  }

  /** One dictionary per combination: the zipped ranged part, then `other`. */
  function Combine(keys: seq<string>, combos: seq<seq<Value>>, other: Dict): (r: seq<Dict>)
    ensures |r| == |combos|
    ensures forall n :: 0 <= n < |combos| ==> r[n] == Zip(keys, combos[n]) + other
  {
    seq(|combos|, n requires 0 <= n < |combos| => Zip(keys, combos[n]) + other)
  }

  function Explode(group: Dict, rangeKeys: seq<string>): Result<seq<Dict>>
  {
    var ranged := Partition(group, rangeKeys, true);
    var other := Partition(group, rangeKeys, false);
    var pools :- Pools(ranged);
    Success(Combine(Keys(ranged), Product(pools), other))
  }

  /** Number of candidates a value offers when exploded (0 if it offers none). */
  function Candidates(v: Value): nat
  {
    match Iterate(v)
    case Some(vs) => |vs|
    case None => 0
  }

  /** The number of configurations explode should give: the product, over the group's
      entries, of the candidate count of each ranged entry. */
  function Combinations(group: Dict, rangeKeys: seq<string>): nat
  {
    if |group| == 0 then 1
    else (if group[0].key in rangeKeys then Candidates(group[0].value) else 1)
         * Combinations(group[1..], rangeKeys)
  }

  /** A dictionary `e` is one concrete variant of `group`: the ranged keys
      come first in group order, each bound to one of its candidates, and the
      other entries follow unchanged. */
  ghost predicate IsVariant(e: Dict, group: Dict, rangeKeys: seq<string>)
  {
    var ranged := Partition(group, rangeKeys, true);
    var other := Partition(group, rangeKeys, false);
    && |e| == |ranged| + |other|
    && e[|ranged|..] == other
    && forall m :: 0 <= m < |ranged| ==>
         && e[m].key == ranged[m].key
         && Iterate(ranged[m].value).Some?
         && e[m].value in Iterate(ranged[m].value).value
  }

  // ---------------------------------------------------------------------
  // Partition facts

  lemma {:induction false} PartitionMember(d: Dict, rangeKeys: seq<string>, ranged: bool, e: Entry)
    ensures e in Partition(d, rangeKeys, ranged) <==> e in d && (e.key in rangeKeys) == ranged
    decreases |d|
  {
    if |d| > 0 {
      PartitionMember(d[1..], rangeKeys, ranged, e);
      assert d == [d[0]] + d[1..];
    }
  }

  lemma {:induction false} PartitionWellFormed(d: Dict, rangeKeys: seq<string>, ranged: bool)
    requires WellFormed(d)
    ensures WellFormed(Partition(d, rangeKeys, ranged))
    decreases |d|
  {
    if |d| > 0 {
      PartitionWellFormed(d[1..], rangeKeys, ranged);
      var tail := Partition(d[1..], rangeKeys, ranged);
      forall j | 0 <= j < |tail|
        ensures tail[j].key != d[0].key
      {
        PartitionMember(d[1..], rangeKeys, ranged, tail[j]);
        var i :| 0 <= i < |d[1..]| && d[1..][i] == tail[j];
        assert d[i + 1] == tail[j];
      }
    }
  }

  /** The two parts together hold each key of the group exactly once. */
  lemma {:induction false} PartitionsDisjoint(d: Dict, rangeKeys: seq<string>)
    requires WellFormed(d)
    ensures WellFormed(Partition(d, rangeKeys, true) + Partition(d, rangeKeys, false))
  {
    var a, b := Partition(d, rangeKeys, true), Partition(d, rangeKeys, false);
    PartitionWellFormed(d, rangeKeys, true);
    PartitionWellFormed(d, rangeKeys, false);
    forall i, j | 0 <= i < |a| && 0 <= j < |b|
      ensures a[i].key != b[j].key
    {
      PartitionMember(d, rangeKeys, true, a[i]);
      PartitionMember(d, rangeKeys, false, b[j]);
    }
  }

  /** Lookup of a key that is not ranged finds the same in the other part as
      in the group, and nothing in the ranged part. */
  lemma PartitionGet(d: Dict, rangeKeys: seq<string>, k: string)
    requires k !in rangeKeys
    ensures Get(Partition(d, rangeKeys, false), k) == Get(d, k)
    ensures k !in Keys(Partition(d, rangeKeys, true))
  {
    PartitionGetOther(d, rangeKeys, k);
    var r := Partition(d, rangeKeys, true);
    if k in Keys(r) {
      var i :| 0 <= i < |r| && Keys(r)[i] == k;
      PartitionMember(d, rangeKeys, true, r[i]);
    }
  }

  lemma {:induction false} PartitionGetOther(d: Dict, rangeKeys: seq<string>, k: string)
    requires k !in rangeKeys
    ensures Get(Partition(d, rangeKeys, false), k) == Get(d, k)
    decreases |d|
  {
    if |d| > 0 {
      PartitionGetOther(d[1..], rangeKeys, k);
      var o := Partition(d[1..], rangeKeys, false);
      if d[0].key in rangeKeys {
        assert d[0].key != k;
        assert Partition(d, rangeKeys, false) == o;
      } else {
        assert Partition(d, rangeKeys, false) == [d[0]] + o;
        assert ([d[0]] + o)[1..] == o;
      }
    }
  }

  /** Only the membership of the group's own keys in the range keys matters. */
  lemma {:induction false} PartitionRangeKeys(d: Dict, rk1: seq<string>, rk2: seq<string>, ranged: bool)
    requires forall e :: e in d ==> (e.key in rk1 <==> e.key in rk2)
    ensures Partition(d, rk1, ranged) == Partition(d, rk2, ranged)
    decreases |d|
  {
    if |d| > 0 {
      assert d[0] in d;
      forall e | e in d[1..]
        ensures e.key in rk1 <==> e.key in rk2
      {
        assert e in d;
      }
      PartitionRangeKeys(d[1..], rk1, rk2, ranged);
    }
  }

  // ---------------------------------------------------------------------
  // Properties of the expansion

  /** Expansion fails exactly when a ranged value cannot be iterated, and
      then names the key of such an entry. */
  lemma ExplodeSucceeds(group: Dict, rangeKeys: seq<string>)
    ensures Explode(group, rangeKeys).Success? <==>
              forall e :: e in group && e.key in rangeKeys ==> Iterate(e.value).Some?
    ensures Explode(group, rangeKeys).Failure? ==>
              && Explode(group, rangeKeys).error.NotIterable?
              && exists e :: e in group && e.key in rangeKeys && Iterate(e.value).None?
                             && Explode(group, rangeKeys).error.key == e.key
  {
    var ranged := Partition(group, rangeKeys, true);
    forall e
      ensures e in ranged <==> e in group && e.key in rangeKeys
    {
      PartitionMember(group, rangeKeys, true, e);
    }
    if Explode(group, rangeKeys).Failure? {
      var k :| 0 <= k < |ranged| && Iterate(ranged[k].value).None?
               && Pools(ranged).error == NotIterable(ranged[k].key);
      assert ranged[k] in ranged;
    }
  }

  /** A group with no ranged key expands to itself alone: the product of no
      lists has exactly one (empty) element. */
  lemma ExplodeNoRangedKeys(group: Dict, rangeKeys: seq<string>)
    requires forall e :: e in group ==> e.key !in rangeKeys
    ensures Explode(group, rangeKeys) == Success([group])
  {
    forall ranged: bool
      ensures Partition(group, rangeKeys, ranged) == Partition(group, [], ranged)
    {
      PartitionRangeKeys(group, rangeKeys, [], ranged);
    }
    PartitionAll(group);
    assert Partition(group, rangeKeys, true) == [] by {
      if |Partition(group, rangeKeys, true)| > 0 {
        PartitionMember(group, rangeKeys, true, Partition(group, rangeKeys, true)[0]);
      }
    }
    assert Pools([]) == Success([]);
    assert Product<Value>([]) == [[]];
    assert Zip(Keys([]), []) + group == group;
    assert Combine(Keys([]), [[]], group) == [group];
  }

  /** With no range keys at all, every entry belongs to the other part. */
  lemma {:induction false} PartitionAll(d: Dict)
    ensures Partition(d, [], false) == d
    decreases |d|
  {
    if |d| > 0 {
      PartitionAll(d[1..]);
      assert d == [d[0]] + d[1..];
    }
  }

  /** The number of configurations is the product of the candidate counts of
      the ranged entries. */
  lemma ExplodeCount(group: Dict, rangeKeys: seq<string>)
    requires Explode(group, rangeKeys).Success?
    ensures |Explode(group, rangeKeys).value| == Combinations(group, rangeKeys)
  {
    var pools := Pools(Partition(group, rangeKeys, true)).value;
    ProductLength(pools);
    SizeIsCombinations(group, rangeKeys);
  }

  lemma {:induction false} SizeIsCombinations(group: Dict, rangeKeys: seq<string>)
    requires Pools(Partition(group, rangeKeys, true)).Success?
    ensures Size(Pools(Partition(group, rangeKeys, true)).value) == Combinations(group, rangeKeys)
    decreases |group|
  {
    if |group| > 0 {
      var ranged := Partition(group, rangeKeys, true);
      var rest := Partition(group[1..], rangeKeys, true);
      if group[0].key in rangeKeys {
        assert ranged == [group[0]] + rest;
        assert ranged[1..] == rest;
        assert Pools(rest).Success?;
        SizeIsCombinations(group[1..], rangeKeys);
        var vs := Iterate(group[0].value).value;
        assert Pools(ranged).value == [vs] + Pools(rest).value;
        assert (Pools(ranged).value)[1..] == Pools(rest).value;
      } else {
        SizeIsCombinations(group[1..], rangeKeys);
      }
    }
  }

  /** A ranged entry with an empty candidate list yields no configuration. */
  lemma ExplodeEmptyCandidates(group: Dict, rangeKeys: seq<string>, e: Entry)
    requires e in group && e.key in rangeKeys && Iterate(e.value) == Some([])
    requires Explode(group, rangeKeys).Success?
    ensures Explode(group, rangeKeys).value == []
  {
    var ranged := Partition(group, rangeKeys, true);
    var pools := Pools(ranged).value;
    PartitionMember(group, rangeKeys, true, e);
    var k :| 0 <= k < |ranged| && ranged[k] == e;
    assert |pools[k]| == 0;
    SizeZero(pools);
    ProductLength(pools);
  }

  /** The outputs are exactly the variants of the group. */
  lemma ExplodeMember(group: Dict, rangeKeys: seq<string>, e: Dict)
    requires Explode(group, rangeKeys).Success?
    ensures e in Explode(group, rangeKeys).value <==> IsVariant(e, group, rangeKeys)
  {
    if e in Explode(group, rangeKeys).value {
      ExplodeSound(group, rangeKeys, e);
    }
    if IsVariant(e, group, rangeKeys) {
      ExplodeComplete(group, rangeKeys, e);
    }
  }

  /** Every output is a variant of the group. */
  lemma ExplodeSound(group: Dict, rangeKeys: seq<string>, e: Dict)
    requires Explode(group, rangeKeys).Success? && e in Explode(group, rangeKeys).value
    ensures IsVariant(e, group, rangeKeys)
  {
    var ranged := Partition(group, rangeKeys, true);
    var other := Partition(group, rangeKeys, false);
    var pools := Pools(ranged).value;
    var combos: seq<seq<Value>> := Product(pools);
    var out: seq<Dict> := Explode(group, rangeKeys).value;
    assert out == Combine(Keys(ranged), combos, other);
    var n :| 0 <= n < |out| && out[n] == e;
    var t := combos[n];
    ProductSound(pools, t);
    assert e == Zip(Keys(ranged), t) + other;
    assert e[|ranged|..] == other;
  }

  /** Every variant of the group is an output. */
  lemma ExplodeComplete(group: Dict, rangeKeys: seq<string>, e: Dict)
    requires Explode(group, rangeKeys).Success? && IsVariant(e, group, rangeKeys)
    ensures e in Explode(group, rangeKeys).value
  {
    var ranged := Partition(group, rangeKeys, true);
    var other := Partition(group, rangeKeys, false);
    var pools := Pools(ranged).value;
    var combos: seq<seq<Value>> := Product(pools);
    var out: seq<Dict> := Explode(group, rangeKeys).value;
    assert out == Combine(Keys(ranged), combos, other);
    var t := seq(|ranged|, m requires 0 <= m < |ranged| => e[m].value);
    ProductComplete(pools, t);
    var n :| 0 <= n < |combos| && combos[n] == t;
    assert out[n] == Zip(Keys(ranged), t) + other;
    assert e == e[..|ranged|] + e[|ranged|..];
    assert Zip(Keys(ranged), t) == e[..|ranged|];
    assert out[n] == e;
  }

  /** Every output of a well-formed group is itself a dictionary. */
  lemma ExplodeWellFormed(group: Dict, rangeKeys: seq<string>, e: Dict)
    requires WellFormed(group)
    requires Explode(group, rangeKeys).Success? && e in Explode(group, rangeKeys).value
    ensures WellFormed(e)
    ensures Keys(e) == Keys(Partition(group, rangeKeys, true) + Partition(group, rangeKeys, false))
  {
    ExplodeMember(group, rangeKeys, e);
    PartitionsDisjoint(group, rangeKeys);
    VariantKeyOrder(e, group, rangeKeys);
  }

  /** A variant carries the ranged keys and then the other keys, position by
      position, so it inherits their distinctness. */
  lemma VariantKeyOrder(e: Dict, group: Dict, rangeKeys: seq<string>)
    requires IsVariant(e, group, rangeKeys)
    requires WellFormed(Partition(group, rangeKeys, true) + Partition(group, rangeKeys, false))
    ensures WellFormed(e)
    ensures Keys(e) == Keys(Partition(group, rangeKeys, true) + Partition(group, rangeKeys, false))
  {
    var both := Partition(group, rangeKeys, true) + Partition(group, rangeKeys, false);
    var r := |Partition(group, rangeKeys, true)|;
    forall i | 0 <= i < |e|
      ensures e[i].key == both[i].key
    {
      if i >= r {
        assert e[i] == e[r..][i - r];
      }
    }
  }

  /** Every output has exactly the group's keys; a key outside the range keys
      keeps its value, a ranged key holds one of its candidates. */
  lemma ExplodeLookup(group: Dict, rangeKeys: seq<string>, e: Dict, k: string)
    requires WellFormed(group)
    requires Explode(group, rangeKeys).Success? && e in Explode(group, rangeKeys).value
    ensures Get(e, k).Some? <==> Get(group, k).Some?
    ensures k !in rangeKeys ==> Get(e, k) == Get(group, k)
    ensures k in rangeKeys && Get(group, k).Some? ==>
              && Iterate(Get(group, k).value).Some?
              && Get(e, k).value in Iterate(Get(group, k).value).value
  {
    var ranged := Partition(group, rangeKeys, true);
    var other := Partition(group, rangeKeys, false);
    ExplodeMember(group, rangeKeys, e);
    ExplodeWellFormed(group, rangeKeys, e);
    var head := e[..|ranged|];
    assert e == head + other by {
      assert e == e[..|ranged|] + e[|ranged|..];
    }
    GetAppend(head, other, k);
    if k !in rangeKeys {
      PartitionGet(group, rangeKeys, k);
      assert Keys(head) == Keys(ranged);
    } else {
      RangedLookup(group, rangeKeys, e, k);
    }
  }

  /** The ranged half of `ExplodeLookup`. */
  lemma RangedLookup(group: Dict, rangeKeys: seq<string>, e: Dict, k: string)
    requires WellFormed(group) && WellFormed(e)
    requires IsVariant(e, group, rangeKeys)
    requires k in rangeKeys
    ensures Get(e, k).Some? <==> Get(group, k).Some?
    ensures Get(group, k).Some? ==>
              && Iterate(Get(group, k).value).Some?
              && Get(e, k).value in Iterate(Get(group, k).value).value
  {
    var ranged := Partition(group, rangeKeys, true);
    var other := Partition(group, rangeKeys, false);
    var head := e[..|ranged|];
    assert e == head + other by {
      assert e == e[..|ranged|] + e[|ranged|..];
    }
    GetAppend(head, other, k);
    RangedNotOther(group, rangeKeys, k);
    if Get(group, k).Some? {
      RangedPresent(group, rangeKeys, e, k);
    } else {
      RangedAbsent(group, rangeKeys, e, k);
    }
  }

  /** A range key is never among the other values. */
  lemma RangedNotOther(group: Dict, rangeKeys: seq<string>, k: string)
    requires k in rangeKeys
    ensures Get(Partition(group, rangeKeys, false), k).None?
  {
    var other := Partition(group, rangeKeys, false);
    if Get(other, k).Some? {
      PartitionMember(group, rangeKeys, false, Entry(k, Get(other, k).value));
    }
  }

  /** A range key the group holds is held by the variant's ranged part, with
      one of its candidates. */
  lemma RangedPresent(group: Dict, rangeKeys: seq<string>, e: Dict, k: string)
    requires WellFormed(e)
    requires IsVariant(e, group, rangeKeys)
    requires k in rangeKeys && Get(group, k).Some?
    ensures var head := e[..|Partition(group, rangeKeys, true)|];
            && Get(head, k).Some?
            && Iterate(Get(group, k).value).Some?
            && Get(head, k).value in Iterate(Get(group, k).value).value
  {
    var ranged := Partition(group, rangeKeys, true);
    var head := e[..|ranged|];
    var v := Get(group, k).value;
    PartitionMember(group, rangeKeys, true, Entry(k, v));
    var m :| 0 <= m < |ranged| && ranged[m] == Entry(k, v);
    assert head[m] == e[m];
    assert WellFormed(head);
    GetEntry(head, m);
  }

  /** A range key the group lacks is absent from the variant's ranged part. */
  lemma RangedAbsent(group: Dict, rangeKeys: seq<string>, e: Dict, k: string)
    requires WellFormed(group)
    requires IsVariant(e, group, rangeKeys)
    requires Get(group, k).None?
    ensures Get(e[..|Partition(group, rangeKeys, true)|], k).None?
  {
    var ranged := Partition(group, rangeKeys, true);
    if k in Keys(ranged) {
      var m :| 0 <= m < |ranged| && ranged[m].key == k;
      PartitionMember(group, rangeKeys, true, ranged[m]);
      GetEntry(group, IndexOf(group, ranged[m]));
    } else {
      assert Keys(e[..|ranged|]) == Keys(ranged);
    }
  }

  /** Some position holding `x`. */
  function IndexOf(d: Dict, x: Entry): (i: nat)
    requires x in d
    ensures i < |d| && d[i] == x
  {
    if d[0] == x then 0 else 1 + IndexOf(d[1..], x)
  }

  /** The candidates of a value, when it has some, are pairwise different. */
  predicate DistinctCandidates(v: Value)
  {
    match Iterate(v)
    case Some(vs) => Distinct(vs)
    case None => true
  }

  /** Candidate lists without repetitions give pairwise different outputs. */
  lemma ExplodeDistinct(group: Dict, rangeKeys: seq<string>)
    requires Explode(group, rangeKeys).Success?
    requires forall e :: e in group && e.key in rangeKeys ==> DistinctCandidates(e.value)
    ensures Distinct(Explode(group, rangeKeys).value)
  {
    var ranged := Partition(group, rangeKeys, true);
    var other := Partition(group, rangeKeys, false);
    var pools := Pools(ranged).value;
    var combos: seq<seq<Value>> := Product(pools);
    forall k | 0 <= k < |pools|
      ensures Distinct(pools[k])
    {
      PartitionMember(group, rangeKeys, true, ranged[k]);
    }
    ProductDistinct(pools);
    var out: seq<Dict> := Explode(group, rangeKeys).value;
    forall n, m | 0 <= n < m < |out|
      ensures out[n] != out[m]
    {
      DifferentCombos(Keys(ranged), combos[n], combos[m], other, pools);
    }
  }

  lemma DifferentCombos(keys: seq<string>, t1: seq<Value>, t2: seq<Value>, other: Dict,
                        pools: seq<seq<Value>>)
    requires |keys| == |pools|
    requires t1 in Product(pools) && t2 in Product(pools) && t1 != t2
    ensures Zip(keys, t1) + other != Zip(keys, t2) + other
  {
    ProductSound(pools, t1);
    ProductSound(pools, t2);
    var i :| 0 <= i < |t1| && t1[i] != t2[i];
    assert (Zip(keys, t1) + other)[i].value == t1[i];
    assert (Zip(keys, t2) + other)[i].value == t2[i];
  }

  /** `d` with the value under `k` replaced by `v`, in place. */
  function Replace(d: Dict, k: string, v: Value): (r: Dict)
    ensures |r| == |d|
    decreases |d|
  {
    if |d| == 0 then []
    else [if d[0].key == k then Entry(k, v) else d[0]] + Replace(d[1..], k, v)
  }

  /** A value whose candidates are those of `v` without the first one. */
  function Rest(v: Value): (r: Value)
    requires Iterate(v).Some? && |Iterate(v).value| > 0
    ensures Iterate(r) == Some(Iterate(v).value[1..])
  {
    match v
    case Str(s) =>
      assert Iterate(Str(s[1..])).value == Iterate(v).value[1..];
      Str(s[1..])
    case List(items) => List(items[1..])
    case Tuple(items) => Tuple(items[1..])
  }

  lemma {:induction false} ReplaceAbsent(d: Dict, k: string, v: Value)
    requires forall i :: 0 <= i < |d| ==> d[i].key != k
    ensures Replace(d, k, v) == d
    decreases |d|
  {
    if |d| > 0 {
      ReplaceAbsent(d[1..], k, v);
    }
  }

  /** Replacing the value of the first ranged entry changes only the head of
      the ranged part. */
  lemma {:induction false} PartitionReplace(d: Dict, rangeKeys: seq<string>, v: Value)
    requires WellFormed(d)
    requires |Partition(d, rangeKeys, true)| > 0
    ensures var ranged := Partition(d, rangeKeys, true);
            var d' := Replace(d, ranged[0].key, v);
            && Partition(d', rangeKeys, true) == [Entry(ranged[0].key, v)] + ranged[1..]
            && Partition(d', rangeKeys, false) == Partition(d, rangeKeys, false)
    decreases |d|
  {
    var ranged := Partition(d, rangeKeys, true);
    var k := ranged[0].key;
    if d[0].key in rangeKeys {
      assert ranged[0] == d[0];
      ReplaceAbsent(d[1..], k, v);
    } else {
      PartitionMember(d, rangeKeys, true, ranged[0]);
      assert d[0].key != k;
      PartitionReplace(d[1..], rangeKeys, v);
    }
  }

  /** Combining distributes over concatenated combination lists. */
  lemma CombineAppend(keys: seq<string>, a: seq<seq<Value>>, b: seq<seq<Value>>, other: Dict)
    ensures Combine(keys, a + b, other) == Combine(keys, a, other) + Combine(keys, b, other)
  {
  }

  /** The first ranged key varies slowest: with `k` the first ranged key in
      insertion order and `x` its first candidate, the outputs open with
      every configuration that binds `k` to `x` and continue with those for
      the remaining candidates of `k`. `ExplodeIndex` gives the full order. */
  lemma ExplodeOrder(group: Dict, rangeKeys: seq<string>)
    requires WellFormed(group)
    requires Explode(group, rangeKeys).Success?
    requires |Partition(group, rangeKeys, true)| > 0
    requires |Iterate(Partition(group, rangeKeys, true)[0].value).value| > 0
    ensures var first := Partition(group, rangeKeys, true)[0];
            var vs := Iterate(first.value).value;
            var single := Explode(Replace(group, first.key, List([vs[0]])), rangeKeys);
            var rest := Explode(Replace(group, first.key, Rest(first.value)), rangeKeys);
            && single.Success? && rest.Success?
            && Explode(group, rangeKeys).value == single.value + rest.value
  {
    var ranged := Partition(group, rangeKeys, true);
    var other := Partition(group, rangeKeys, false);
    var vs := Iterate(ranged[0].value).value;
    var tailPools := Pools(ranged).value[1..];
    assert Pools(ranged).value == [vs] + tailPools;
    ExplodeReplaceFirst(group, rangeKeys, List([vs[0]]));
    ExplodeReplaceFirst(group, rangeKeys, Rest(ranged[0].value));
    ProductSplitFirst(vs, tailPools);
    CombineAppend(Keys(ranged), Product([[vs[0]]] + tailPools), Product([vs[1..]] + tailPools), other);
  }

  /** Replacing the value of the first ranged entry replaces its pool and
      leaves the keys, the other pools and the other values alone. */
  lemma ExplodeReplaceFirst(group: Dict, rangeKeys: seq<string>, v: Value)
    requires WellFormed(group)
    requires Pools(Partition(group, rangeKeys, true)).Success?
    requires |Partition(group, rangeKeys, true)| > 0 && Iterate(v).Some?
    ensures var ranged := Partition(group, rangeKeys, true);
            Explode(Replace(group, ranged[0].key, v), rangeKeys)
              == Success(Combine(Keys(ranged), Product([Iterate(v).value] + Pools(ranged).value[1..]),
                                 Partition(group, rangeKeys, false)))
  {
    var ranged := Partition(group, rangeKeys, true);
    var tailPools := Pools(ranged).value[1..];
    assert Pools(ranged[1..]) == Success(tailPools);
    PartitionReplace(group, rangeKeys, v);
    var rs := [Entry(ranged[0].key, v)] + ranged[1..];
    assert rs[1..] == ranged[1..];
    assert Pools(rs) == Success([Iterate(v).value] + tailPools);
    assert Keys(rs) == Keys(ranged);
  }


  /** The configuration at the mixed-radix position of `idx` binds the m-th
      ranged key to candidate `idx[m]` of its value and keeps the other
      entries: the ranged keys vary like nested loops, the last one fastest. */
  lemma ExplodeIndex(group: Dict, rangeKeys: seq<string>, idx: seq<nat>)
    requires Explode(group, rangeKeys).Success?
    requires ValidIndex(Pools(Partition(group, rangeKeys, true)).value, idx)
    ensures var ranged := Partition(group, rangeKeys, true);
            var other := Partition(group, rangeKeys, false);
            var configs := Explode(group, rangeKeys).value;
            var n := Rank(Pools(ranged).value, idx);
            && n < |configs|
            && |configs[n]| == |ranged| + |other|
            && (forall m :: 0 <= m < |ranged| ==>
                  configs[n][m] == Entry(ranged[m].key, Iterate(ranged[m].value).value[idx[m]]))
            && configs[n][|ranged|..] == other
  {
    var ranged := Partition(group, rangeKeys, true);
    var other := Partition(group, rangeKeys, false);
    var pools := Pools(ranged).value;
    ProductIndex(pools, idx);
    var n := Rank(pools, idx);
    var e := Explode(group, rangeKeys).value[n];
    assert e == Zip(Keys(ranged), Pick(pools, idx)) + other;
  }

  /** Every configuration sits at the mixed-radix position of the candidate
      positions it picks. */
  lemma ExplodeAt(group: Dict, rangeKeys: seq<string>, n: nat) returns (idx: seq<nat>)
    requires Explode(group, rangeKeys).Success? && n < |Explode(group, rangeKeys).value|
    ensures ValidIndex(Pools(Partition(group, rangeKeys, true)).value, idx)
    ensures Rank(Pools(Partition(group, rangeKeys, true)).value, idx) == n
    ensures var ranged := Partition(group, rangeKeys, true);
            && |Explode(group, rangeKeys).value[n]| >= |ranged|
            && forall m :: 0 <= m < |ranged| ==>
              Explode(group, rangeKeys).value[n][m]
                == Entry(ranged[m].key, Iterate(ranged[m].value).value[idx[m]])
  {
    var pools := Pools(Partition(group, rangeKeys, true)).value;
    idx := ProductAt(pools, n);
    ExplodeIndex(group, rangeKeys, idx);
  }

  /** Lookup in `dict(zip(keys, values))` with distinct keys and enough
      values finds the value at the key's position, and nothing for another
      key. */
  lemma ZipGet(keys: seq<string>, values: seq<Value>, k: string)
    requires Distinct(keys) && |keys| <= |values|
    ensures k !in keys ==> Get(Zip(keys, values), k).None?
    ensures forall i :: 0 <= i < |keys| && keys[i] == k ==> Get(Zip(keys, values), k) == Some(values[i])
  {
    var z := Zip(keys, values);
    assert Keys(z) == keys;
    forall i | 0 <= i < |keys| && keys[i] == k
      ensures Get(z, k) == Some(values[i])
    {
      GetEntry(z, i);
    }
  }

  /** Range keys absent from the group are ignored, not reported. */
  lemma ExplodeIgnoresAbsentKeys(group: Dict, rangeKeys: seq<string>, extra: seq<string>)
    requires forall e :: e in group ==> e.key !in extra
    ensures Explode(group, rangeKeys + extra) == Explode(group, rangeKeys)
  {
    forall ranged: bool
      ensures Partition(group, rangeKeys + extra, ranged) == Partition(group, rangeKeys, ranged)
    {
      PartitionRangeKeys(group, rangeKeys + extra, rangeKeys, ranged);
    }
  }
}

=== FILE: params.dfy ===
/**
  Parameter dictionaries as they reach the task classes: insertion-ordered
  sequences of (name, value) entries with distinct names, plus the errors
  that building tasks from them can raise.
 */
module Params {

  datatype Option<+T> = None | Some(value: T)

  /** The ways turning a grid into tasks fails in the source. */
  datatype Error =
    | NotIterable(key: string)        // a ranged value `itertools.product` cannot iterate
    | DuplicateArgument(key: string)  // a general key that is also passed explicitly
    | UnknownParameter(key: string)   // a general key that is no task parameter
    | MissingParameter(key: string)   // a task parameter nobody supplied
    | WrongType(key: string)          // a task field whose value has the wrong shape

  datatype Result<+T> = Success(value: T) | Failure(error: Error) {
    predicate IsFailure() { Failure? }

    function PropagateFailure<U>(): Result<U>
      requires Failure?
    {
      Failure(error)
    }

    function Extract(): T
      requires Success?
    {
      value
    }
  }

  /** Apply `f` to each element in order; the first failure stops the loop
      and is the result. */
  function MapResult<A, B>(f: A -> Result<B>, xs: seq<A>): (r: Result<seq<B>>)
    ensures r.Success? <==> forall n :: 0 <= n < |xs| ==> f(xs[n]).Success?
    ensures r.Success? ==>
              && |r.value| == |xs|
              && forall n :: 0 <= n < |xs| ==> Success(r.value[n]) == f(xs[n])
    decreases |xs|
  {
    if |xs| == 0 then Success([])
    else
      var y :- f(xs[0]);
      var rest :- MapResult(f, xs[1..]);
      assert forall n :: 1 <= n < |xs| ==> xs[n] == xs[1..][n - 1];
      Success([y] + rest)
  }

  /** A failing loop reports the error of the first element that fails. */
  lemma {:induction false} MapResultFirstError<A, B>(f: A -> Result<B>, xs: seq<A>) returns (n: nat)
    requires MapResult(f, xs).Failure?
    ensures n < |xs| && f(xs[n]) == Failure(MapResult(f, xs).error)
    ensures forall m :: 0 <= m < n ==> f(xs[m]).Success?
    decreases |xs|
  {
    if f(xs[0]).Failure? {
      n := 0;
    } else {
      var k := MapResultFirstError(f, xs[1..]);
      n := k + 1;
      assert forall m :: 1 <= m < |xs| ==> xs[m] == xs[1..][m - 1];
    }
  }

  /** A parameter value. Floats and any other scalar are opaque tokens. */
  datatype Value =
    | Str(s: string)
    | Int(i: int)
    | Opaque(id: nat)
    | List(items: seq<Value>)
    | Tuple(items: seq<Value>)

  datatype Entry = Entry(key: string, value: Value)

  /** A dictionary in insertion order. */
  type Dict = seq<Entry>

  /** The key sequence of a dictionary, in insertion order. */
  function Keys(d: Dict): (r: seq<string>)
    ensures |r| == |d|
    ensures forall i :: 0 <= i < |d| ==> r[i] == d[i].key
  {
    seq(|d|, i requires 0 <= i < |d| => d[i].key)
  }

  /** Python dictionaries never hold a key twice. */
  predicate WellFormed(d: Dict)
  {
    forall i, j :: 0 <= i < j < |d| ==> d[i].key != d[j].key
  }

  /** `d.get(k)`: the value stored under `k`, if any. */
  function Get(d: Dict, k: string): (r: Option<Value>)
    ensures r.None? <==> k !in Keys(d)
    ensures r.Some? ==> Entry(k, r.value) in d
  {
    if |d| == 0 then None
    else if d[0].key == k then Some(d[0].value)
    else
      assert Keys(d) == [d[0].key] + Keys(d[1..]);
      Get(d[1..], k)
  }

  /** In a well-formed dictionary, every entry is what lookup of its key finds. */
  lemma {:induction false} GetEntry(d: Dict, i: nat)
    requires WellFormed(d) && i < |d|
    ensures Get(d, d[i].key) == Some(d[i].value)
  {
    if i > 0 {
      assert d[0].key != d[i].key;
      assert d[1..][i - 1] == d[i];
      GetEntry(d[1..], i - 1);
    }
  }

  /** Lookup in a concatenation consults the left part first. */
  lemma {:induction false} GetAppend(a: Dict, b: Dict, k: string)
    ensures Get(a + b, k) == if k in Keys(a) then Get(a, k) else Get(b, k)
  {
    if |a| > 0 {
      assert (a + b)[1..] == a[1..] + b;
      assert Keys(a) == [a[0].key] + Keys(a[1..]);
      GetAppend(a[1..], b, k);
    } else {
      assert a + b == b;
    }
  }

  /** What iterating a value yields: list and tuple items, the one-character
      strings of a string; numbers and other scalars cannot be iterated. */
  function Iterate(v: Value): (r: Option<seq<Value>>)
    ensures r.Some? <==> (v.Str? || v.List? || v.Tuple?)
    ensures v.Str? ==>
              && r.Some? && |r.value| == |v.s|
              && forall i :: 0 <= i < |v.s| ==> r.value[i] == Str([v.s[i]])
  {
    match v
    case Str(s) => Some(seq(|s|, i requires 0 <= i < |s| => Str([s[i]])))
    case List(items) => Some(items)
    case Tuple(items) => Some(items)
    case _ => None
  }
}

=== FILE: posix_path.dfy ===
/**
  The two POSIX path operations the directory layout rests on:
  `os.path.join`, which the task classes use to build every directory, and
  `os.path.split`, its inverse for a final component without slashes.
 */
module PosixPath {
  import opened Text

  /** `os.path.join(path, b)`: an absolute `b` replaces the path; otherwise a
      '/' goes in between unless the path is empty or already ends in one. */
  function Join2(path: string, b: string): string
  {
    if |b| > 0 && b[0] == '/' then b
    else if |path| == 0 || path[|path| - 1] == '/' then path + b
    else path + "/" + b
  }

  /** `os.path.join(a, *ps)`: the components are joined from left to right. */
  function Join(a: string, ps: seq<string>): string
    decreases |ps|
  {
    if |ps| == 0 then a else Join(Join2(a, ps[0]), ps[1..])
  }

  /** A non-empty path whose last character is not a '/'. */
  predicate EndsInName(p: string)
  {
    |p| > 0 && p[|p| - 1] != '/'
  }

  /** A relative component that neither starts nor ends with a '/'; it may
      hold slashes inside, as `testing/sample_C.n5` does. */
  predicate Segment(c: string)
  {
    EndsInName(c) && c[0] != '/'
  }

  /** A single non-empty name without any '/'. */
  predicate Name(c: string)
  {
    |c| > 0 && forall i :: 0 <= i < |c| ==> c[i] != '/'
  }

  /** `p.rfind('/')`: the position of the last '/', or -1. */
  function RFindSlash(p: string): (r: int)
    ensures -1 <= r < |p|
    ensures r >= 0 ==> p[r] == '/'
    ensures forall i :: r < i < |p| ==> p[i] != '/'
    decreases |p|
  {
    if |p| == 0 then -1
    else if p[|p| - 1] == '/' then |p| - 1
    else RFindSlash(p[..|p| - 1])
  }

  /** `s.rstrip('/')`. */
  function RStripSlashes(s: string): (r: string)
    ensures |r| <= |s| && r == s[..|r|]
    ensures |r| == 0 || r[|r| - 1] != '/'
    ensures forall i :: |r| <= i < |s| ==> s[i] == '/'
    decreases |s|
  {
    if |s| > 0 && s[|s| - 1] == '/' then RStripSlashes(s[..|s| - 1]) else s
  }

  predicate AllSlashes(s: string)
  {
    forall i :: 0 <= i < |s| ==> s[i] == '/'
  }

  /** `os.path.split(p)`: everything after the last '/' is the tail; the head
      loses its trailing slashes unless it consists of slashes only. */
  function Split(p: string): (string, string)
  {
    var i := RFindSlash(p) + 1;
    var head, tail := p[..i], p[i..];
    if |head| > 0 && !AllSlashes(head) then (RStripSlashes(head), tail) else (head, tail)
  }

  /** Two parts of `sep.join` may be glued before joining the rest. */
  lemma JoinWithGlue(sep: string, x: string, y: string, rest: seq<string>)
    ensures JoinWith(sep, [x + sep + y] + rest) == x + sep + JoinWith(sep, [y] + rest)
  {
    if |rest| > 0 {
      assert ([x + sep + y] + rest)[1..] == rest;
      assert ([y] + rest)[1..] == rest;
    }
  }

  /** From a base that ends in a name, relative segments are joined with a
      single '/' each: the path reads `a/p1/p2/...`. */
  lemma {:induction false} JoinSegments(a: string, ps: seq<string>)
    requires EndsInName(a)
    requires forall i :: 0 <= i < |ps| ==> Segment(ps[i])
    ensures Join(a, ps) == JoinWith("/", [a] + ps)
    decreases |ps|
  {
    if |ps| > 0 {
      var b := a + "/" + ps[0];
      assert Join2(a, ps[0]) == b;
      assert EndsInName(b);
      JoinSegments(b, ps[1..]);
      JoinWithGlue("/", a, ps[0], ps[1..]);
      assert [ps[0]] + ps[1..] == ps;
      assert ([a] + ps)[1..] == ps;
    }
  }

  /** Joining one more component continues the join of the others. */
  lemma {:induction false} JoinSnoc(a: string, ps: seq<string>, b: string)
    ensures Join(a, ps + [b]) == Join2(Join(a, ps), b)
    decreases |ps|
  {
    if |ps| > 0 {
      assert (ps + [b])[1..] == ps[1..] + [b];
      JoinSnoc(Join2(a, ps[0]), ps[1..], b);
    } else {
      assert ps + [b] == [b];
    }
  }

  /** A joined path whose last component is a name ends in that name,
      whatever was joined before it. */
  lemma JoinEndsWith(a: string, ps: seq<string>, b: string)
    requires Name(b)
    ensures |Join(a, ps + [b])| >= |b|
    ensures Join(a, ps + [b])[|Join(a, ps + [b])| - |b|..] == b
  {
    JoinSnoc(a, ps, b);
    var path := Join(a, ps);
    assert b[0] != '/';
    if |path| == 0 || path[|path| - 1] == '/' {
      assert (path + b)[|path + b| - |b|..] == b;
    } else {
      assert (path + "/" + b)[|path + "/" + b| - |b|..] == b;
    }
  }

  /** Two equal joins whose last components are names of one length end in
      the same name. */
  lemma JoinSameLast(d1: string, c1: string, b1: string, d2: string, c2: string, b2: string)
    requires Name(b1) && Name(b2) && |b1| == |b2|
    requires Join(d1, [c1, b1]) == Join(d2, [c2, b2])
    ensures b1 == b2
  {
    JoinEndsWith(d1, [c1], b1);
    JoinEndsWith(d2, [c2], b2);
    assert [c1] + [b1] == [c1, b1];
    assert [c2] + [b2] == [c2, b2];
  }

  /** A relative segment joined onto a path that ends in a name is
      separated from it by exactly one '/'. */
  lemma JoinAppendSegment(a: string, ps: seq<string>, b: string)
    requires EndsInName(Join(a, ps)) && Segment(b)
    ensures Join(a, ps + [b]) == Join(a, ps) + "/" + b
    ensures EndsInName(Join(a, ps + [b]))
  {
    JoinSnoc(a, ps, b);
  }

  /** Joining two lists of components is joining the second onto the join
      of the first. */
  lemma {:induction false} JoinConcat(a: string, ps: seq<string>, qs: seq<string>)
    ensures Join(a, ps + qs) == Join(Join(a, ps), qs)
    decreases |ps|
  {
    if |ps| > 0 {
      assert (ps + qs)[1..] == ps[1..] + qs;
      JoinConcat(Join2(a, ps[0]), ps[1..], qs);
    } else {
      assert ps + qs == qs;
    }
  }

  /** Two relative segments joined onto a path that ends in a name. */
  lemma JoinTwoSegments(dir: string, a: string, b: string)
    requires EndsInName(dir) && Segment(a) && Segment(b)
    ensures Join(dir, [a, b]) == dir + "/" + a + "/" + b
  {
    JoinAppendSegment(dir, [], a);
    assert [] + [a] == [a];
    JoinAppendSegment(dir, [a], b);
    assert [a] + [b] == [a, b];
  }

  /** An absolute component discards everything joined before it. */
  lemma {:induction false} JoinAbsolute(a: string, ps: seq<string>, i: nat)
    requires i < |ps| && |ps[i]| > 0 && ps[i][0] == '/'
    ensures Join(a, ps) == Join(ps[i], ps[i + 1..])
    decreases i
  {
    if i > 0 {
      JoinAbsolute(Join2(a, ps[0]), ps[1..], i - 1);
      assert ps[1..][i - 1..][1..] == ps[i + 1..];
    }
  }

  /** The joined path ends in a name when the last component does. */
  lemma {:induction false} JoinEndsInName(a: string, ps: seq<string>)
    requires |ps| > 0 && EndsInName(ps[|ps| - 1])
    ensures EndsInName(Join(a, ps))
    decreases |ps|
  {
    if |ps| > 1 {
      JoinEndsInName(Join2(a, ps[0]), ps[1..]);
    }
  }

  /** Splitting a path joined from a directory, a component ending in a
      name and a final name gives back the final name and the join of the
      rest. */
  lemma SplitJoinLast(dir: string, c: string, b: string)
    requires EndsInName(c) && Name(b)
    ensures Split(Join(dir, [c, b])) == (Join(dir, [c]), b)
  {
    JoinEndsInName(dir, [c]);
    JoinSnoc(dir, [c], b);
    assert [c] + [b] == [c, b];
    SplitJoin(Join(dir, [c]), b);
  }

  /** Splitting undoes joining a name onto a path that ends in a name. */
  lemma SplitJoin(path: string, b: string)
    requires EndsInName(path) && Name(b)
    ensures Split(Join2(path, b)) == (path, b)
  {
    var p := path + "/" + b;
    assert Join2(path, b) == p;
    assert p[|path|] == '/';
    var r := RFindSlash(p);
    assert forall i :: |path| < i < |p| ==> p[i] == b[i - |path| - 1];
    assert r == |path|;
    var head := p[..|path| + 1];
    assert head == path + "/";
    assert !AllSlashes(head) by {
      assert head[|path| - 1] == path[|path| - 1];
    }
    var stripped := RStripSlashes(head);
    assert stripped == path by {
      assert RStripSlashes(head) == RStripSlashes(head[..|path|]);
      assert head[..|path|] == path;
    }
    assert p[|path| + 1..] == b;
  }
}

=== FILE: sample_grid.dfy ===
/**
  The grid that `grid_search_sample.py` hands to `EvaluateCombinations`:
  two setups, two iterations, two smoothing values and three solver
  thresholds, everything else fixed.
 */
module SampleGrid {
  import opened Params
  import opened Seqs
  import opened GridExpansion
  import opened Tasks
  import opened FanOut

  const SampleName: string := "testing/sample_C_padded_20160501.aligned.filled.cropped.62:153.n5"

  const General: Dict := [
    Entry("experiment", Str("cremi")),
    Entry("setup", List([Str("setup01"), Str("setup02")])),
    Entry("iteration", List([Int(300000), Int(400000)])),
    Entry("sample", Str(SampleName))]

  const Data: Dict := [Entry("candidate_extraction_mode", Str("single"))]

  /** The smoothing values 0.1 and 0.2 are floats, kept as opaque tokens. */
  const Preprocessing: Dict := [Entry("gaussian_sigma_single", List([Opaque(1), Opaque(2)]))]

  const Output: Dict := [
    Entry("roi_x", Tuple([Int(0), Int(100)])),
    Entry("roi_y", Tuple([Int(0), Int(100)])),
    Entry("roi_z", Tuple([Int(0), Int(100)]))]

  const Solve: Dict := [Entry("cc_min_vertices", List([Int(4), Int(5), Int(6)]))]

  const RangeKeys: seq<string> := ["setup", "iteration", "gaussian_sigma_single", "cc_min_vertices"]

  const Sample: Grid := Grid(General, Data, Preprocessing, Output, Solve, RangeKeys)

  /** The general group expands to 2·2 = 4 configurations. */
  lemma GeneralCount()
    ensures Explode(General, RangeKeys).Success?
    ensures |Explode(General, RangeKeys).value| == 4
  {
    ExplodeSucceeds(General, RangeKeys);
    ExplodeCount(General, RangeKeys);
    GeneralCombinations();
  }

  lemma GeneralCombinations()
    ensures Combinations(General, RangeKeys) == 4
  {
    var e0, e1, e2, e3 := General[0], General[1], General[2], General[3];
    assert e0.key !in RangeKeys && e1.key in RangeKeys && e2.key in RangeKeys && e3.key !in RangeKeys;
    assert Candidates(e1.value) == 2 && Candidates(e2.value) == 2;
    assert Combinations([e3], RangeKeys) == 1 by {
      CombinationsCons(e3, [], RangeKeys);
      assert [e3] + [] == [e3];
    }
    assert Combinations([e2, e3], RangeKeys) == 2 by {
      CombinationsCons(e2, [e3], RangeKeys);
      assert [e2] + [e3] == [e2, e3];
    }
    assert Combinations([e1, e2, e3], RangeKeys) == 4 by {
      CombinationsCons(e1, [e2, e3], RangeKeys);
      assert [e1] + [e2, e3] == [e1, e2, e3];
    }
    CombinationsCons(e0, [e1, e2, e3], RangeKeys);
    assert [e0] + [e1, e2, e3] == General;
  }

  lemma CombinationsCons(e: Entry, rest: Dict, rangeKeys: seq<string>)
    ensures Combinations([e] + rest, rangeKeys)
            == (if e.key in rangeKeys then Candidates(e.value) else 1) * Combinations(rest, rangeKeys)
  {
    assert ([e] + rest)[1..] == rest;
  }

  /** The data and output groups have no ranged key and stay as they are. */
  lemma FixedGroups()
    ensures Explode(Data, RangeKeys) == Success([Data])
    ensures Explode(Output, RangeKeys) == Success([Output])
  {
    ExplodeNoRangedKeys(Data, RangeKeys);
    assert forall e :: e in Output ==> e.key !in RangeKeys;
    ExplodeNoRangedKeys(Output, RangeKeys);
  }

  /** The preprocessing group expands to 2 configurations. */
  lemma PreprocessingCount()
    ensures Explode(Preprocessing, RangeKeys).Success?
    ensures |Explode(Preprocessing, RangeKeys).value| == 2
  {
    ExplodeSucceeds(Preprocessing, RangeKeys);
    ExplodeCount(Preprocessing, RangeKeys);
    CombinationsCons(Preprocessing[0], [], RangeKeys);
    assert [Preprocessing[0]] + [] == Preprocessing;
  }

  /** The solve group expands to 3 configurations. */
  lemma SolveCount()
    ensures Explode(Solve, RangeKeys).Success?
    ensures |Explode(Solve, RangeKeys).value| == 3
  {
    ExplodeSucceeds(Solve, RangeKeys);
    ExplodeCount(Solve, RangeKeys);
    CombinationsCons(Solve[0], [], RangeKeys);
    assert [Solve[0]] + [] == Solve;
  }

  lemma PartitionCons(e: Entry, rest: Dict, rangeKeys: seq<string>, ranged: bool)
    ensures Partition([e] + rest, rangeKeys, ranged)
            == (if (e.key in rangeKeys) == ranged then [e] else []) + Partition(rest, rangeKeys, ranged)
  {
    assert ([e] + rest)[1..] == rest;
  }

  /** Setup and iteration are ranged; experiment and sample pass through. */
  lemma GeneralPartition()
    ensures Partition(General, RangeKeys, true) == [General[1], General[2]]
    ensures Partition(General, RangeKeys, false) == [General[0], General[3]]
  {
    var e0, e1, e2, e3 := General[0], General[1], General[2], General[3];
    assert e0.key !in RangeKeys && e1.key in RangeKeys && e2.key in RangeKeys && e3.key !in RangeKeys;
    assert General == [e0] + ([e1] + ([e2] + ([e3] + [])));
    PartitionFour(e0, e1, e2, e3, RangeKeys, true);
    PartitionFour(e0, e1, e2, e3, RangeKeys, false);
  }

  /** Partitioning a four-entry group entry by entry. */
  lemma PartitionFour(e0: Entry, e1: Entry, e2: Entry, e3: Entry, rangeKeys: seq<string>, ranged: bool)
    ensures Partition([e0] + ([e1] + ([e2] + ([e3] + []))), rangeKeys, ranged)
            == (if (e0.key in rangeKeys) == ranged then [e0] else [])
               + (if (e1.key in rangeKeys) == ranged then [e1] else [])
               + (if (e2.key in rangeKeys) == ranged then [e2] else [])
               + (if (e3.key in rangeKeys) == ranged then [e3] else [])
  {
    PartitionCons(e3, [], rangeKeys, ranged);
    PartitionCons(e2, [e3] + [], rangeKeys, ranged);
    PartitionCons(e1, [e2] + ([e3] + []), rangeKeys, ranged);
    PartitionCons(e0, [e1] + ([e2] + ([e3] + [])), rangeKeys, ranged);
  }

  /** The shape of a general configuration of the sample: the two ranged
      values first, then the experiment and the sample. */
  function Variant(setup: Value, iteration: Value, experiment: Value, sample: Value): Dict
  {
    [Entry("setup", setup), Entry("iteration", iteration),
     Entry("experiment", experiment), Entry("sample", sample)]
  }

  /** Its keys are exactly the four scalar parameter names. */
  lemma VariantKeys(v1: Value, v2: Value, v3: Value, v4: Value)
    ensures forall i :: 0 <= i < 4 ==> Variant(v1, v2, v3, v4)[i].key in GeneralNames
    ensures forall j :: 0 <= j < |GeneralNames| ==> GeneralNames[j] in Keys(Variant(v1, v2, v3, v4))
  {
    assert Keys(Variant(v1, v2, v3, v4)) == ["setup", "iteration", "experiment", "sample"];
  }

  /** Its values have the right kinds when the integer parameter holds an
      integer and the others strings. */
  lemma VariantTyped(v1: Value, v2: Value, v3: Value, v4: Value)
    requires v1.Str? && v2.Int? && v3.Str? && v4.Str?
    ensures WellTyped(Variant(v1, v2, v3, v4))
  {
    var g := Variant(v1, v2, v3, v4);
    assert g[1..] == [Entry("iteration", v2), Entry("experiment", v3), Entry("sample", v4)];
    assert g[1..][1..] == [Entry("experiment", v3), Entry("sample", v4)];
    assert g[1..][1..][1..] == [Entry("sample", v4)];
    assert Get(g[1..][1..][1..], "sample") == Some(v4);
    assert Get(g[1..][1..], "experiment") == Some(v3);
    assert Get(g[1..][1..], "sample") == Some(v4);
    assert Get(g, "experiment") == Some(v3);
    assert Get(g, "sample") == Some(v4);
  }

  /** A general configuration of the sample's shape is accepted. */
  lemma VariantAccepted(v1: Value, v2: Value, v3: Value, v4: Value)
    requires v1.Str? && v2.Int? && v3.Str? && v4.Str?
    ensures Settings(Variant(v1, v2, v3, v4)).Success?
  {
    VariantKeys(v1, v2, v3, v4);
    VariantTyped(v1, v2, v3, v4);
    SettingsAccepts(Variant(v1, v2, v3, v4));
  }

  /** Every general configuration of the sample is accepted. */
  lemma GeneralsAccepted(g: Dict)
    requires Explode(General, RangeKeys).Success? && g in Explode(General, RangeKeys).value
    ensures Settings(g).Success?
  {
    GeneralPartition();
    ExplodeMember(General, RangeKeys, g);
    assert |g| == 4;
    assert g[2..] == [General[0], General[3]];
    assert g[0].key == "setup" && g[0].value in [Str("setup01"), Str("setup02")];
    assert g[1].key == "iteration" && g[1].value in [Int(300000), Int(400000)];
    assert General[0] == Entry("experiment", General[0].value);
    assert General[3] == Entry("sample", General[3].value);
    assert g == Variant(g[0].value, g[1].value, General[0].value, General[3].value);
    VariantAccepted(g[0].value, g[1].value, General[0].value, General[3].value);
  }

  /** All five groups of the sample expand, to 4, 1, 2, 1 and 3
      configurations. */
  lemma SampleExpands()
    ensures Expands(Sample)
    ensures |Explode(General, RangeKeys).value| == 4
    ensures |Explode(Data, RangeKeys).value| == 1
    ensures |Explode(Preprocessing, RangeKeys).value| == 2
    ensures |Explode(Output, RangeKeys).value| == 1
    ensures |Explode(Solve, RangeKeys).value| == 3
  {
    GeneralCount();
    FixedGroups();
    PreprocessingCount();
    SolveCount();
  }

  /** No key appears twice in the sample's general group, and its two
      candidate lists are free of repetitions. */
  lemma GeneralDistinct()
    ensures WellFormed(General)
    ensures DistinctRanges(General, RangeKeys)
  {
    assert DistinctCandidates(General[1].value) by {
      assert Iterate(General[1].value) == Some([Str("setup01"), Str("setup02")]);
    }
    assert DistinctCandidates(General[2].value) by {
      assert Iterate(General[2].value) == Some([Int(300000), Int(400000)]);
    }
    assert forall e :: e in General && e.key in RangeKeys ==> e == General[1] || e == General[2];
  }

  /** The other groups' candidate lists are free of repetitions. */
  lemma OtherDistinct()
    ensures DistinctRanges(Data, RangeKeys) && DistinctRanges(Output, RangeKeys)
    ensures DistinctRanges(Preprocessing, RangeKeys) && DistinctRanges(Solve, RangeKeys)
  {
    assert forall e :: e in Output ==> e.key !in RangeKeys;
    assert DistinctCandidates(Preprocessing[0].value) by {
      assert Iterate(Preprocessing[0].value) == Some([Opaque(1), Opaque(2)]);
    }
    assert DistinctCandidates(Solve[0].value) by {
      assert Iterate(Solve[0].value) == Some([Int(4), Int(5), Int(6)]);
    }
  }

  /** The sample grid asks for 2·2·2·3 = 24 evaluations, all different, and
      no two of them share the tracking run they depend on. */
  lemma SampleTasks()
    ensures Requires(Sample).Success?
    ensures |Requires(Sample).value| == 24
    ensures Distinct(Requires(Sample).value)
    ensures forall i, j :: 0 <= i < j < |Requires(Sample).value| ==>
              Prerequisites(Requires(Sample).value[i]) != Prerequisites(Requires(Sample).value[j])
  {
    SampleExpands();
    forall g | g in Generals(Sample)
      ensures Settings(g).Success?
    {
      GeneralsAccepted(g);
    }
    RequiresSettings(Sample);
    RequiresCount(Sample);
    GeneralDistinct();
    OtherDistinct();
    RequiresDistinct(Sample);
  }
}

=== FILE: seqs.dfy ===
/**
  Sequence helpers shared by the grid expansion and the fan-out:
  pairwise distinctness and the two-way cross product in nested-loop order
  (the building block of `itertools.product`).
 */
module Seqs {

  /** No element occurs twice. */
  predicate Distinct<T(==)>(s: seq<T>)
  {
    forall i, j :: 0 <= i < j < |s| ==> s[i] != s[j]
  }

  /** One turn of the outer loop: `x` paired with every element of `ys`. */
  function Row<A, B>(x: A, ys: seq<B>): (r: seq<(A, B)>)
    ensures |r| == |ys|
    ensures forall j :: 0 <= j < |ys| ==> r[j] == (x, ys[j])
  {
    seq(|ys|, j requires 0 <= j < |ys| => (x, ys[j]))
  }

  /** Every pair (x, y) with x from `xs` and y from `ys`; `xs` is the outer
      loop, so the first component varies slowest. */
  function Pairs<A, B>(xs: seq<A>, ys: seq<B>): seq<(A, B)>
    decreases |xs|
  {
    if |xs| == 0 then [] else Row(xs[0], ys) + Pairs(xs[1..], ys)
  }

  /** There are |xs| * |ys| pairs. */
  lemma {:induction false} PairsLength<A, B>(xs: seq<A>, ys: seq<B>)
    ensures |Pairs(xs, ys)| == |xs| * |ys|
    decreases |xs|
  {
    if |xs| > 0 {
      PairsLength(xs[1..], ys);
      assert |xs| * |ys| == |ys| + |xs[1..]| * |ys|;
    }
  }

  /** Multiplication is monotone in the first factor (used to bound indices). */
  lemma {:induction false} MulBound(i: nat, n: nat, m: nat)
    requires i < n
    ensures 0 <= i * m
    ensures i * m + m <= n * m
  {
    if i + 1 < n {
      MulBound(i, n - 1, m);
    }
    assert (n - 1) * m + m == n * m;
  }

  /** Pair (xs[i], ys[j]) sits at position i * |ys| + j: the nested-loop order. */
  lemma {:induction false} PairsIndex<A, B>(xs: seq<A>, ys: seq<B>, i: nat, j: nat)
    requires i < |xs| && j < |ys|
    ensures 0 <= i * |ys|
    ensures i * |ys| + j < |Pairs(xs, ys)|
    ensures Pairs(xs, ys)[i * |ys| + j] == (xs[i], ys[j])
  {
    MulBound(i, |xs|, |ys|);
    PairsLength(xs, ys);
    if i > 0 {
      PairsIndex(xs[1..], ys, i - 1, j);
      assert i * |ys| + j == |ys| + ((i - 1) * |ys| + j);
    }
  }

  /** Every position n of the product is i * |ys| + j for the pair it holds. */
  lemma {:induction false} PairsAt<A, B>(xs: seq<A>, ys: seq<B>, n: nat) returns (i: nat, j: nat)
    requires n < |Pairs(xs, ys)|
    ensures i < |xs| && j < |ys| && n == i * |ys| + j
    ensures Pairs(xs, ys)[n] == (xs[i], ys[j])
    decreases |xs|
  {
    assert |xs| > 0;
    var rest := Pairs(xs[1..], ys);
    assert Pairs(xs, ys) == Row(xs[0], ys) + rest;
    if n < |ys| {
      i, j := 0, n;
      assert Pairs(xs, ys)[n] == Row(xs[0], ys)[n];
    } else {
      assert Pairs(xs, ys)[n] == rest[n - |ys|];
      var i', j' := PairsAt(xs[1..], ys, n - |ys|);
      i, j := i' + 1, j';
      assert xs[1..][i'] == xs[i];
      MulSucc(i', |ys|);
    }
  }

  lemma MulSucc(i: nat, m: nat)
    ensures (i + 1) * m == i * m + m
  {
  }

  /** A pair occurs exactly when both of its components occur. */
  lemma PairsMember<A, B>(xs: seq<A>, ys: seq<B>, x: A, y: B)
    ensures (x, y) in Pairs(xs, ys) <==> x in xs && y in ys
  {
    if x in xs && y in ys {
      var i :| 0 <= i < |xs| && xs[i] == x;
      var j :| 0 <= j < |ys| && ys[j] == y;
      PairsIndex(xs, ys, i, j);
    }
    if (x, y) in Pairs(xs, ys) {
      var n :| 0 <= n < |Pairs(xs, ys)| && Pairs(xs, ys)[n] == (x, y);
      var i, j := PairsAt(xs, ys, n);
    }
  }

  /** Distinct inputs give distinct pairs. */
  lemma PairsDistinct<A, B>(xs: seq<A>, ys: seq<B>)
    requires Distinct(xs) && Distinct(ys)
    ensures Distinct(Pairs(xs, ys))
  {
    var ps := Pairs(xs, ys);
    forall n, m | 0 <= n < m < |ps|
      ensures ps[n] != ps[m]
    {
      var i, j := PairsAt(xs, ys, n);
      var i', j' := PairsAt(xs, ys, m);
      if i == i' {
        assert j != j';
      }
    }
  }
}

=== FILE: sorting.dfy ===
/**
  `sorted(...)` on a list whose elements are ordered by a string key, and
  the fact that makes a sorted list canonical: when equal keys mean equal
  elements, the sorted result depends only on the multiset of elements.
 */
module Sorting {
  import opened Text

  /** `a <= b` in Python's string order. */
  predicate LessOrEqual(a: string, b: string)
  {
    a == b || Less(a, b)
  }

  /** Ordered by key, ties in any order. */
  predicate SortedBy<T>(s: seq<T>, key: T -> string)
  {
    forall i, j :: 0 <= i < j < |s| ==> LessOrEqual(key(s[i]), key(s[j]))
  }

  /** Equal keys mean equal elements: the key alone identifies an element. */
  predicate KeyIdentifies<T(==)>(s: seq<T>, key: T -> string)
  {
    forall i, j :: 0 <= i < |s| && 0 <= j < |s| && key(s[i]) == key(s[j]) ==> s[i] == s[j]
  }

  lemma LessOrEqualTransitive(a: string, b: string, c: string)
    requires LessOrEqual(a, b) && LessOrEqual(b, c)
    ensures LessOrEqual(a, c)
  {
    if a != b && b != c {
      LessTransitive(a, b, c);
    }
  }

  /** Insert `x` after every element whose key is below its own. */
  function Insert<T>(x: T, s: seq<T>, key: T -> string): (r: seq<T>)
    requires SortedBy(s, key)
    ensures multiset(r) == multiset(s) + multiset{x}
    ensures SortedBy(r, key)
    decreases |s|
  {
    if |s| == 0 then [x]
    else if !Less(key(s[0]), key(x)) then
      assert SortedBy([x] + s, key) by {
        if key(s[0]) != key(x) {
          LessTotal(key(s[0]), key(x));
        }
        forall j | 0 <= j < |s|
          ensures LessOrEqual(key(x), key(s[j]))
        {
          LessOrEqualTransitive(key(x), key(s[0]), key(s[j]));
        }
      }
      [x] + s
    else
      var tail := Insert(x, s[1..], key);
      assert SortedBy([s[0]] + tail, key) by {
        forall j | 0 <= j < |tail|
          ensures LessOrEqual(key(s[0]), key(tail[j]))
        {
          assert tail[j] in multiset(tail);
          assert tail[j] in multiset(s[1..]) || tail[j] == x;
          if tail[j] != x {
            var k :| 0 <= k < |s[1..]| && s[1..][k] == tail[j];
            assert s[k + 1] == tail[j];
          }
        }
      }
      assert s == [s[0]] + s[1..];
      [s[0]] + tail
  }

  /** Insertion sort by key, as `sorted` orders elements with distinct keys. */
  function SortBy<T>(s: seq<T>, key: T -> string): (r: seq<T>)
    ensures multiset(r) == multiset(s)
    ensures SortedBy(r, key)
    decreases |s|
  {
    if |s| == 0 then []
    else
      assert s == s[..|s| - 1] + [s[|s| - 1]];
      Insert(s[|s| - 1], SortBy(s[..|s| - 1], key), key)
  }

  /** Two sorted arrangements of the same elements start alike. */
  lemma SortedSameHead<T>(a: seq<T>, b: seq<T>, key: T -> string)
    requires SortedBy(a, key) && SortedBy(b, key)
    requires multiset(a) == multiset(b) && |a| > 0
    requires KeyIdentifies(a, key)
    ensures |b| > 0 && a[0] == b[0]
  {
    assert a[0] in multiset(b);
    var m :| 0 <= m < |b| && b[m] == a[0];
    assert b[0] in multiset(a);
    var l :| 0 <= l < |a| && a[l] == b[0];
    assert LessOrEqual(key(a[0]), key(b[0]));
    assert LessOrEqual(key(b[0]), key(a[0]));
    if key(a[0]) != key(b[0]) {
      LessAsymmetric(key(a[0]), key(b[0]));
    }
  }

  /** Dropping the first element keeps the key identifying the elements. */
  lemma IdentifiesTail<T>(s: seq<T>, key: T -> string)
    requires |s| > 0 && KeyIdentifies(s, key)
    ensures KeyIdentifies(s[1..], key)
  {
    forall i, j | 0 <= i < |s| - 1 && 0 <= j < |s| - 1 && key(s[1..][i]) == key(s[1..][j])
      ensures s[1..][i] == s[1..][j]
    {
      assert s[1..][i] == s[i + 1] && s[1..][j] == s[j + 1];
    }
  }

  /** The tails of two arrangements of one multiset with equal heads are
      again arrangements of one multiset. */
  lemma SameTails<T>(a: seq<T>, b: seq<T>)
    requires |a| > 0 && |b| > 0 && a[0] == b[0] && multiset(a) == multiset(b)
    ensures multiset(a[1..]) == multiset(b[1..])
  {
    assert a == [a[0]] + a[1..];
    assert b == [b[0]] + b[1..];
    assert multiset(a[1..]) == multiset(a) - multiset{a[0]};
    assert multiset(b[1..]) == multiset(b) - multiset{b[0]};
  }

  /** Two sorted arrangements of the same elements are the same sequence,
      provided the key identifies each element. */
  lemma {:induction false} SortedUnique<T>(a: seq<T>, b: seq<T>, key: T -> string)
    requires SortedBy(a, key) && SortedBy(b, key)
    requires multiset(a) == multiset(b)
    requires KeyIdentifies(a, key)
    ensures a == b
    decreases |a|
  {
    assert |a| == |multiset(a)| == |b|;
    if |a| > 0 {
      SortedSameHead(a, b, key);
      SameTails(a, b);
      SortedTail(a, key);
      SortedTail(b, key);
      IdentifiesTail(a, key);
      SortedUnique(a[1..], b[1..], key);
      assert a == [a[0]] + a[1..] && b == [b[0]] + b[1..];
    }
  }

  /** Dropping the first element keeps a sequence sorted. */
  lemma SortedTail<T>(s: seq<T>, key: T -> string)
    requires |s| > 0 && SortedBy(s, key)
    ensures SortedBy(s[1..], key)
  {
    forall i, j | 0 <= i < j < |s| - 1
      ensures LessOrEqual(key(s[1..][i]), key(s[1..][j]))
    {
      assert s[1..][i] == s[i + 1] && s[1..][j] == s[j + 1];
    }
  }

  /** Sorting forgets the order in which the elements were supplied. */
  lemma SortByCanonical<T>(s1: seq<T>, s2: seq<T>, key: T -> string)
    requires multiset(s1) == multiset(s2)
    requires KeyIdentifies(s1, key)
    ensures SortBy(s1, key) == SortBy(s2, key)
  {
    var a, b := SortBy(s1, key), SortBy(s2, key);
    forall i, j | 0 <= i < |a| && 0 <= j < |a| && key(a[i]) == key(a[j])
      ensures a[i] == a[j]
    {
      assert a[i] in multiset(s1) && a[j] in multiset(s1);
      var i' :| 0 <= i' < |s1| && s1[i'] == a[i];
      var j' :| 0 <= j' < |s1| && s1[j'] == a[j];
    }
    SortedUnique(a, b, key);
  }
}

=== FILE: tasks.dfy ===
/**
  `MtrackTask` and its two subclasses: the eight parameters every task
  carries, the prerequisite an `EvaluateTask` names, and the names derived
  from the parameters: the configuration hash, the database name and the
  directories below the base directory.
 */
module Tasks {
  import opened Params
  import opened Text
  import opened Sorting
  import opened PosixPath

  /** Directory names below an experiment directory. */
  const DataDirName: string := "01_data"
  const TrainDirName: string := "02_setups"
  const PredictDirName: string := "03_predict"

  /** The eight parameters of `MtrackTask`, in declaration order. */
  datatype MtrackParams = MtrackParams(
    experiment: string,
    setup: string,
    iteration: int,
    sample: string,
    data: Dict,
    preprocessing: Dict,
    output: Dict,
    solve: Dict)

  datatype Kind = Evaluate | Track

  /** An `EvaluateTask` or a `TrackTask`; both carry the same parameters. */
  datatype Task = Task(kind: Kind, params: MtrackParams)

  /** `requires()`: an evaluation needs the tracking run on the very same
      parameters; tracking needs nothing. */
  function Prerequisites(t: Task): (r: seq<Task>)
    ensures r == [] <==> t.kind.Track?
    ensures forall u :: u in r ==> u.kind == Track && u.params == t.params
  {
    if t.kind == Evaluate then [Task(Track, t.params)] else []
  }

  // ---------------------------------------------------------------------
  // The configuration hash

  /** The names of the four scalar parameters, in declaration order. */
  const GeneralNames: seq<string> := ["experiment", "setup", "iteration", "sample"]

  /** The names of the four dictionary parameters, in declaration order. */
  const DictParamNames: seq<string> :=
    ["data_parameters", "preprocessing_parameters", "output_parameters", "solve_parameters"]

  /** All parameter names, in declaration order. */
  const ParamNames: seq<string> := GeneralNames + DictParamNames

  /** What `to_str_params` makes of a parameter value: string and integer
      parameters their `str`, dictionary parameters their JSON text, which is
      represented here by the dictionary it encodes. */
  datatype Serialized = Literal(s: string) | Json(d: Dict)

  datatype Item = Item(name: string, form: Serialized)

  /** The serialized value of the `i`-th parameter. */
  function Form(p: MtrackParams, i: nat): Serialized
    requires i < |ParamNames|
  {
    match i
    case 0 => Literal(p.experiment)
    case 1 => Literal(p.setup)
    case 2 => Literal(IntToString(p.iteration))
    case 3 => Literal(p.sample)
    case 4 => Json(p.data)
    case 5 => Json(p.preprocessing)
    case 6 => Json(p.output)
    case _ => Json(p.solve)
  }

  /** `to_str_params()`: one item per parameter, in declaration order. */
  function ToStrParams(p: MtrackParams): (r: seq<Item>)
    ensures |r| == |ParamNames|
    ensures forall i :: 0 <= i < |r| ==> r[i] == Item(ParamNames[i], Form(p, i))
  {
    seq(|ParamNames|, i requires 0 <= i < |ParamNames| => Item(ParamNames[i], Form(p, i)))
  }

  /** What is hashed: the `repr` of a sorted list, either of names alone or
      of (name, serialized value) pairs. */
  datatype HashInput = Names(names: seq<string>) | Items(items: seq<Item>)

  predicate IsHexDigest(s: string)
  {
    |s| == 40 && forall i :: 0 <= i < |s| ==> ('0' <= s[i] <= '9' || 'a' <= s[i] <= 'f')
  }

  /** `hexdigest()` of SHA-1: forty lower-case hexadecimal digits. */
  type Digest = s: string | IsHexDigest(s) witness "0000000000000000000000000000000000000000"

  /** The same two inputs never share a digest. */
  predicate NoCollision(sha1: HashInput -> Digest, x: HashInput, y: HashInput)
  {
    sha1(x) == sha1(y) ==> x == y
  }

  function Identity(s: string): string
  {
    s
  }

  function ItemName(it: Item): string
  {
    it.name
  }

  function NamesOf(items: seq<Item>): (r: seq<string>)
    ensures |r| == |items|
    ensures forall i :: 0 <= i < |items| ==> r[i] == items[i].name
  {
    seq(|items|, i requires 0 <= i < |items| => items[i].name)
  }

  /** The hash input as the code builds it: `sorted` applied to the
      dictionary `to_str_params()` returns iterates over its keys, so the
      eight parameter names are all that is hashed. */
  function ConfigHashInputAsWritten(p: MtrackParams): (r: HashInput)
    ensures r.Names? && SortedBy(r.names, Identity)
    ensures multiset(r.names) == multiset(ParamNames)
  {
    assert NamesOf(ToStrParams(p)) == ParamNames;
    Names(SortBy(NamesOf(ToStrParams(p)), Identity))
  }

  /** `config_hash()` as the code computes it. */
  function ConfigHash(p: MtrackParams, sha1: HashInput -> Digest): Digest
  {
    sha1(ConfigHashInputAsWritten(p))
  }

  /** A hash input that tells configurations apart: the (name, value) pairs
      sorted by name, `sorted(self.to_str_params().items())`. The hash names
      the directory a configuration's results go to and the collection they
      are stored in, so it has to depend on the values. */
  function CanonicalInput(p: MtrackParams): (r: HashInput)
    ensures r.Items?
    ensures multiset(r.items) == multiset(ToStrParams(p))
    ensures SortedBy(r.items, ItemName)
  {
    Items(SortBy(ToStrParams(p), ItemName))
  }

  /** `config_hash()` corrected to hash the canonical input. */
  function ConfigHashCorrected(p: MtrackParams, sha1: HashInput -> Digest): Digest
  {
    sha1(CanonicalInput(p))
  }

  /** No two parameters share a name; their lengths already differ. */
  lemma ParamNamesDistinct()
    ensures forall i, j :: 0 <= i < j < |ParamNames| ==> ParamNames[i] != ParamNames[j]
  {
    forall i, j | 0 <= i < j < |ParamNames|
      ensures ParamNames[i] != ParamNames[j]
    {
      assert |ParamNames[i]| != |ParamNames[j]|;
    }
  }

  /** As written, every task hashes the same input, whatever its values. */
  lemma AsWrittenIgnoresValues(p: MtrackParams, q: MtrackParams, sha1: HashInput -> Digest)
    ensures ConfigHashInputAsWritten(p) == ConfigHashInputAsWritten(q)
    ensures ConfigHash(p, sha1) == ConfigHash(q, sha1)
  {
    assert NamesOf(ToStrParams(p)) == NamesOf(ToStrParams(q));
  }

  /** Within the items of one task, the name identifies the item. */
  lemma NameIdentifiesItem(p: MtrackParams)
    ensures KeyIdentifies(ToStrParams(p), ItemName)
  {
    ParamNamesDistinct();
  }

  /** The canonical input does not depend on the order in which the
      parameters are supplied: any arrangement of the items sorts to it. */
  lemma CanonicalPermutationInvariant(p: MtrackParams, supplied: seq<Item>)
    requires multiset(supplied) == multiset(ToStrParams(p))
    ensures SortBy(supplied, ItemName) == CanonicalInput(p).items
  {
    NameIdentifiesItem(p);
    SortByCanonical(ToStrParams(p), supplied, ItemName);
  }

  /** Two arrangements of the same items that agree name by name, the
      names being distinct, are the same sequence. */
  lemma SameArrangement(a: seq<Item>, b: seq<Item>)
    requires |a| == |b|
    requires forall i :: 0 <= i < |a| ==> a[i].name == b[i].name
    requires forall i, j :: 0 <= i < j < |a| ==> a[i].name != a[j].name
    requires multiset(a) == multiset(b)
    ensures a == b
  {
    forall i | 0 <= i < |a|
      ensures a[i] == b[i]
    {
      assert a[i] in multiset(b);
      var j :| 0 <= j < |b| && b[j] == a[i];
    }
  }

  /** Different parameters give different `to_str_params()` items. */
  lemma ToStrParamsInjective(p: MtrackParams, q: MtrackParams)
    requires ToStrParams(p) == ToStrParams(q)
    ensures p == q
  {
    forall i | 0 <= i < |ParamNames|
      ensures Form(p, i) == Form(q, i)
    {
      assert ToStrParams(p)[i] == ToStrParams(q)[i];
    }
    assert Form(p, 2) == Form(q, 2);
    IntToStringInjective(p.iteration, q.iteration);
    assert Form(p, 0) == Form(q, 0) && Form(p, 1) == Form(q, 1) && Form(p, 3) == Form(q, 3);
    assert Form(p, 4) == Form(q, 4) && Form(p, 5) == Form(q, 5);
    assert Form(p, 6) == Form(q, 6) && Form(p, 7) == Form(q, 7);
  }

  lemma ItemNamesDistinct(p: MtrackParams)
    ensures forall i, j :: 0 <= i < j < |ToStrParams(p)| ==> ToStrParams(p)[i].name != ToStrParams(p)[j].name
  {
    ParamNamesDistinct();
  }

  /** The items of two tasks form the same multiset only when they are the
      same sequence. */
  lemma SameItems(p: MtrackParams, q: MtrackParams)
    requires multiset(ToStrParams(p)) == multiset(ToStrParams(q))
    ensures ToStrParams(p) == ToStrParams(q)
  {
    var a, b := ToStrParams(p), ToStrParams(q);
    assert forall i :: 0 <= i < |a| ==> a[i].name == b[i].name;
    ItemNamesDistinct(p);
    SameArrangement(a, b);
  }

  /** Two tasks hash the same canonical input exactly when all eight of their
      parameters agree: changing any value changes the input. */
  lemma CanonicalInjective(p: MtrackParams, q: MtrackParams)
    ensures CanonicalInput(p) == CanonicalInput(q) <==> p == q
  {
    if CanonicalInput(p) == CanonicalInput(q) {
      SameItems(p, q);
      ToStrParamsInjective(p, q);
    }
  }

  // ---------------------------------------------------------------------
  // Database and directory names

  /** `db_name()`: experiment, setup and the iteration in thousands, rounded
      toward zero, joined by '_'. */
  function DbName(p: MtrackParams): string
  {
    JoinWith("_", [p.experiment, p.setup, IntToString(TruncDiv(p.iteration, 1000)) + "k"])
  }

  /** For a non-negative iteration the name reads
      `experiment_setup_<iteration div 1000>k`. */
  lemma DbNameLayout(p: MtrackParams)
    requires p.iteration >= 0
    ensures DbName(p) == p.experiment + "_" + p.setup + "_" + IntToString(p.iteration / 1000) + "k"
  {
    JoinWithThree("_", p.experiment, p.setup, IntToString(p.iteration / 1000) + "k");
  }

  /** Tasks of one experiment and setup share a database exactly when their
      iterations fall into the same thousand (counted toward zero). */
  lemma DbNameBucket(p: MtrackParams, q: MtrackParams)
    requires p.experiment == q.experiment && p.setup == q.setup
    ensures DbName(p) == DbName(q) <==> TruncDiv(p.iteration, 1000) == TruncDiv(q.iteration, 1000)
  {
    var prefix := p.experiment + "_" + p.setup + "_";
    var s, t := IntToString(TruncDiv(p.iteration, 1000)), IntToString(TruncDiv(q.iteration, 1000));
    JoinWithThree("_", p.experiment, p.setup, s + "k");
    JoinWithThree("_", q.experiment, q.setup, t + "k");
    assert DbName(p) == prefix + s + "k";
    assert DbName(q) == prefix + t + "k";
    if DbName(p) == DbName(q) {
      assert s == DbName(p)[|prefix|..|DbName(p)| - 1];
      assert t == DbName(q)[|prefix|..|DbName(q)| - 1];
      IntToStringInjective(TruncDiv(p.iteration, 1000), TruncDiv(q.iteration, 1000));
    }
  }

  /** `input_data_dir()`. */
  function InputDataDir(base: string, p: MtrackParams): string
  {
    Join(base, [p.experiment, DataDirName])
  }

  /** `train_dir()`. */
  function TrainDir(base: string, p: MtrackParams): string
  {
    Join(base, [p.experiment, TrainDirName, p.setup])
  }

  /** `predict_dir()`. */
  function PredictDir(base: string, p: MtrackParams): string
  {
    Join(base, [p.experiment, PredictDirName, p.setup, IntToString(p.iteration)])
  }

  /** `output_basename()`, defined alike by both task classes. */
  function OutputBasename(base: string, t: Task, sha1: HashInput -> Digest): string
  {
    Join(PredictDir(base, t.params), [t.params.sample, ConfigHash(t.params, sha1)])
  }

  /** `output_basename()` on the corrected hash. */
  function OutputBasenameCorrected(base: string, t: Task, sha1: HashInput -> Digest): string
  {
    Join(PredictDir(base, t.params), [t.params.sample, ConfigHashCorrected(t.params, sha1)])
  }

  /** Plain names: a base directory ending in a name, and relative
      experiment, setup and sample names. */
  predicate PlainNames(base: string, p: MtrackParams)
  {
    EndsInName(base) && Segment(p.experiment) && Segment(p.setup) && Segment(p.sample)
  }

  lemma IntToStringSegment(i: int)
    ensures Segment(IntToString(i))
  {
    var s := IntToString(i);
    if i >= 0 {
      assert IsDigit(s[0]) && IsDigit(s[|s| - 1]);
    } else {
      assert s[1..] == NatToString(-i);
      assert IsDigit(s[1..][|s| - 2]);
    }
  }

  lemma DigestName(d: Digest)
    ensures Name(d) && Segment(d)
  {
  }

  /** From a base ending in a name and a relative experiment, the input
      data directory is `base/experiment/01_data`. */
  lemma InputDataDirLayout(base: string, p: MtrackParams)
    requires EndsInName(base) && Segment(p.experiment)
    ensures InputDataDir(base, p) == base + "/" + p.experiment + "/" + DataDirName
  {
    JoinAppendSegment(base, [], p.experiment);
    assert [] + [p.experiment] == [p.experiment];
    JoinAppendSegment(base, [p.experiment], DataDirName);
    assert [p.experiment] + [DataDirName] == [p.experiment, DataDirName];
  }

  /** From a base ending in a name and a relative experiment and setup,
      the training directory is `base/experiment/02_setups/setup`. */
  lemma TrainDirLayout(base: string, p: MtrackParams)
    requires EndsInName(base) && Segment(p.experiment) && Segment(p.setup)
    ensures TrainDir(base, p) == base + "/" + p.experiment + "/" + TrainDirName + "/" + p.setup
  {
    JoinAppendSegment(base, [], p.experiment);
    assert [] + [p.experiment] == [p.experiment];
    JoinAppendSegment(base, [p.experiment], TrainDirName);
    assert [p.experiment] + [TrainDirName] == [p.experiment, TrainDirName];
    JoinAppendSegment(base, [p.experiment, TrainDirName], p.setup);
    assert [p.experiment, TrainDirName] + [p.setup] == [p.experiment, TrainDirName, p.setup];
  }

  /** From a base ending in a name and a relative experiment and setup,
      the prediction directory is
      `base/experiment/03_predict/setup/<iteration>`. */
  lemma PredictDirLayout(base: string, p: MtrackParams)
    requires EndsInName(base) && Segment(p.experiment) && Segment(p.setup)
    ensures PredictDir(base, p) == base + "/" + p.experiment + "/" + PredictDirName + "/"
                                   + p.setup + "/" + IntToString(p.iteration)
    ensures EndsInName(PredictDir(base, p))
  {
    var it := IntToString(p.iteration);
    IntToStringSegment(p.iteration);
    JoinAppendSegment(base, [], p.experiment);
    assert [] + [p.experiment] == [p.experiment];
    JoinAppendSegment(base, [p.experiment], PredictDirName);
    assert [p.experiment] + [PredictDirName] == [p.experiment, PredictDirName];
    JoinAppendSegment(base, [p.experiment, PredictDirName], p.setup);
    assert [p.experiment, PredictDirName] + [p.setup] == [p.experiment, PredictDirName, p.setup];
    JoinAppendSegment(base, [p.experiment, PredictDirName, p.setup], it);
    assert [p.experiment, PredictDirName, p.setup] + [it] == [p.experiment, PredictDirName, p.setup, it];
  }

  /** With plain names the output basename is
      `base/experiment/03_predict/setup/<iteration>/sample/<hash>`. */
  lemma OutputBasenameLayout(base: string, t: Task, sha1: HashInput -> Digest)
    requires PlainNames(base, t.params)
    ensures OutputBasename(base, t, sha1)
            == base + "/" + t.params.experiment + "/" + PredictDirName + "/" + t.params.setup + "/"
               + IntToString(t.params.iteration) + "/" + t.params.sample + "/" + ConfigHash(t.params, sha1)
  {
    var p := t.params;
    var dir := PredictDir(base, p);
    var h := ConfigHash(p, sha1);
    PredictDirLayout(base, p);
    DigestName(h);
    JoinTwoSegments(dir, p.sample, h);
  }

  /** An absolute experiment name leaves the base directory out of every
      path: the base has no influence at all. */
  lemma AbsoluteExperiment(base1: string, base2: string, t: Task, sha1: HashInput -> Digest)
    requires |t.params.experiment| > 0 && t.params.experiment[0] == '/'
    ensures InputDataDir(base1, t.params) == InputDataDir(base2, t.params)
    ensures TrainDir(base1, t.params) == TrainDir(base2, t.params)
    ensures PredictDir(base1, t.params) == PredictDir(base2, t.params)
    ensures OutputBasename(base1, t, sha1) == OutputBasename(base2, t, sha1)
  {
    var p := t.params;
    forall base | base in {base1, base2}
      ensures InputDataDir(base, p) == Join(p.experiment, [DataDirName])
      ensures TrainDir(base, p) == Join(p.experiment, [TrainDirName, p.setup])
      ensures PredictDir(base, p) == Join(p.experiment, [PredictDirName, p.setup, IntToString(p.iteration)])
    {
      JoinAbsolute(base, [p.experiment, DataDirName], 0);
      JoinAbsolute(base, [p.experiment, TrainDirName, p.setup], 0);
      JoinAbsolute(base, [p.experiment, PredictDirName, p.setup, IntToString(p.iteration)], 0);
    }
  }

  /** The last component of the output basename is the configuration hash;
      splitting it off leaves the sample directory. */
  lemma OutputBasenameSplit(base: string, t: Task, sha1: HashInput -> Digest)
    requires EndsInName(t.params.sample)
    ensures Split(OutputBasename(base, t, sha1))
            == (Join(PredictDir(base, t.params), [t.params.sample]), ConfigHash(t.params, sha1))
  {
    DigestName(ConfigHash(t.params, sha1));
    SplitJoinLast(PredictDir(base, t.params), t.params.sample, ConfigHash(t.params, sha1));
  }

  /** What `os.path.join(base, c)` puts before a relative component `c`. */
  function Prefix(base: string): string
  {
    if |base| == 0 || base[|base| - 1] == '/' then base else base + "/"
  }

  /** The decimal text of an integer holds no '/'. */
  lemma IntToStringName(i: int)
    ensures Name(IntToString(i))
  {
    var s := IntToString(i);
    if i < 0 {
      assert forall k :: 1 <= k < |s| ==> s[k] == NatToString(-i)[k - 1];
    }
  }

  /** A slash-free component is recovered from `pre + a + "/" + x`: the
      first '/' after `pre` ends it. */
  lemma NameSlashAfter(pre: string, a: string, b: string, x: string, y: string)
    requires Name(a) && Name(b) && pre + a + "/" + x == pre + b + "/" + y
    ensures a == b && x == y
  {
    var l := pre + a + "/" + x;
    assert forall k :: |pre| <= k < |pre| + |a| ==> l[k] == a[k - |pre|];
    assert forall k :: |pre| <= k < |pre| + |b| ==> l[k] == b[k - |pre|];
    assert l[|pre| + |a|] == '/' && l[|pre| + |b|] == '/';
    assert |a| == |b|;
    assert a == l[|pre|..|pre| + |a|] && b == l[|pre|..|pre| + |b|];
    assert x == l[|pre| + |a| + 1..];
  }

  /** The same with nothing before the component. */
  lemma NameSlashPrefix(a: string, b: string, x: string, y: string)
    requires Name(a) && Name(b) && a + "/" + x == b + "/" + y
    ensures a == b && x == y
  {
    assert "" + a == a && "" + b == b;
    NameSlashAfter("", a, b, x, y);
  }

  lemma NameIsSegment(c: string)
    requires Name(c)
    ensures Segment(c)
  {
  }

  /** Four components joined onto a base and two more onto the result are
      the six components joined by '/', the first glued to what the base
      contributes. */
  lemma JoinSixComponents(base: string, e: string, d: string, st: string, it: string, sample: string, h: string)
    requires Name(e) && Segment(d) && Segment(st) && Segment(it) && Segment(sample) && Segment(h)
    ensures Join(Join(base, [e, d, st, it]), [sample, h])
            == JoinWith("/", [Prefix(base) + e, d, st, it, sample, h])
  {
    var first := Prefix(base) + e;
    var rest := [d, st, it, sample, h];
    calc {
      Join(Join(base, [e, d, st, it]), [sample, h]);
      == { JoinConcat(base, [e, d, st, it], [sample, h]); }
      Join(base, [e, d, st, it] + [sample, h]);
      == { assert [e, d, st, it] + [sample, h] == [e] + rest; }
      Join(base, [e] + rest);
      == { assert ([e] + rest)[1..] == rest; }
      Join(Join2(base, e), rest);
      == { assert Join2(base, e) == first; }
      Join(first, rest);
      == { JoinSegments(first, rest); }
      JoinWith("/", [first] + rest);
      == { assert [first] + rest == [first, d, st, it, sample, h]; }
      JoinWith("/", [first, d, st, it, sample, h]);
    }
  }

  /** The output basename is its six components joined by '/', for
      slash-free experiment and setup names and any relative sample,
      whatever the base directory. */
  lemma OutputBasenameParts(base: string, t: Task, sha1: HashInput -> Digest)
    requires Name(t.params.experiment) && Name(t.params.setup) && Segment(t.params.sample)
    ensures OutputBasename(base, t, sha1)
            == JoinWith("/", [Prefix(base) + t.params.experiment, PredictDirName, t.params.setup,
                              IntToString(t.params.iteration), t.params.sample, ConfigHash(t.params, sha1)])
  {
    var p := t.params;
    IntToStringSegment(p.iteration);
    DigestName(ConfigHash(p, sha1));
    NameIsSegment(p.setup);
    assert Segment(PredictDirName) by {
      assert PredictDirName[0] == '0' && PredictDirName[|PredictDirName| - 1] == 't';
    }
    JoinSixComponents(base, p.experiment, PredictDirName, p.setup, IntToString(p.iteration),
                      p.sample, ConfigHash(p, sha1));
  }

  /** Two paths `pre + e/d/s/i/m/h` that share `pre`, `d` and `h` agree on
      every component when `e`, `s` and `i` are slash-free. */
  lemma PeelComponents(pre: string, d: string, h: string,
                       e1: string, s1: string, i1: string, m1: string,
                       e2: string, s2: string, i2: string, m2: string)
    requires Name(e1) && Name(s1) && Name(i1) && Name(e2) && Name(s2) && Name(i2)
    requires pre + e1 + "/" + (d + "/" + (s1 + "/" + (i1 + "/" + (m1 + "/" + h))))
             == pre + e2 + "/" + (d + "/" + (s2 + "/" + (i2 + "/" + (m2 + "/" + h))))
    ensures e1 == e2 && s1 == s2 && i1 == i2 && m1 == m2
  {
    var w1, w2 := m1 + "/" + h, m2 + "/" + h;
    var v1, v2 := i1 + "/" + w1, i2 + "/" + w2;
    var u1, u2 := s1 + "/" + v1, s2 + "/" + v2;
    var x1, x2 := d + "/" + u1, d + "/" + u2;
    NameSlashAfter(pre, e1, e2, x1, x2);
    assert u1 == x1[|d| + 1..] && u2 == x2[|d| + 1..];
    NameSlashPrefix(s1, s2, v1, v2);
    NameSlashPrefix(i1, i2, w1, w2);
    assert m1 == w1[..|w1| - |h| - 1] && m2 == w2[..|w2| - |h| - 1];
  }

  /** As written, the output basename tells tasks apart only by their
      prediction directory and sample: tasks that agree on those share it,
      whatever their dictionary parameters. The converse needs slash-free
      experiment and setup names; the sample may hold slashes. */
  lemma OutputBasenameAsWrittenShared(base: string, t1: Task, t2: Task, sha1: HashInput -> Digest)
    requires Name(t1.params.experiment) && Name(t1.params.setup) && Segment(t1.params.sample)
    requires Name(t2.params.experiment) && Name(t2.params.setup) && Segment(t2.params.sample)
    ensures OutputBasename(base, t1, sha1) == OutputBasename(base, t2, sha1)
            <==> PredictDir(base, t1.params) == PredictDir(base, t2.params)
                 && t1.params.sample == t2.params.sample
  {
    var p1, p2 := t1.params, t2.params;
    AsWrittenIgnoresValues(p1, p2, sha1);
    if OutputBasename(base, t1, sha1) == OutputBasename(base, t2, sha1) {
      var h := ConfigHash(p1, sha1);
      var it1, it2 := IntToString(p1.iteration), IntToString(p2.iteration);
      OutputBasenameParts(base, t1, sha1);
      OutputBasenameParts(base, t2, sha1);
      JoinWithSix("/", Prefix(base) + p1.experiment, PredictDirName, p1.setup, it1, p1.sample, h);
      JoinWithSix("/", Prefix(base) + p2.experiment, PredictDirName, p2.setup, it2, p2.sample, h);
      IntToStringName(p1.iteration);
      IntToStringName(p2.iteration);
      PeelComponents(Prefix(base), PredictDirName, h, p1.experiment, p1.setup, it1, p1.sample,
                     p2.experiment, p2.setup, it2, p2.sample);
    }
  }

  /** With the corrected hash, and unless SHA-1 collides on their inputs,
      two tasks that share an output basename share all eight parameters. */
  lemma OutputBasenameIdentifies(base: string, t1: Task, t2: Task, sha1: HashInput -> Digest)
    requires NoCollision(sha1, CanonicalInput(t1.params), CanonicalInput(t2.params))
    requires OutputBasenameCorrected(base, t1, sha1) == OutputBasenameCorrected(base, t2, sha1)
    ensures t1.params == t2.params
  {
    var h1, h2 := ConfigHashCorrected(t1.params, sha1), ConfigHashCorrected(t2.params, sha1);
    DigestName(h1);
    DigestName(h2);
    JoinSameLast(PredictDir(base, t1.params), t1.params.sample, h1,
                 PredictDir(base, t2.params), t2.params.sample, h2);
    CanonicalInjective(t1.params, t2.params);
  }

  /** An evaluation and the tracking run it requires share their hash,
      their database, every directory and the output basename, whichever
      hash is used. */
  lemma PrerequisiteSharesNames(base: string, t: Task, sha1: HashInput -> Digest)
    requires t.kind == Evaluate
    ensures |Prerequisites(t)| == 1
    ensures var u := Prerequisites(t)[0];
            && u.kind == Track
            && ConfigHash(u.params, sha1) == ConfigHash(t.params, sha1)
            && DbName(u.params) == DbName(t.params)
            && InputDataDir(base, u.params) == InputDataDir(base, t.params)
            && TrainDir(base, u.params) == TrainDir(base, t.params)
            && PredictDir(base, u.params) == PredictDir(base, t.params)
            && OutputBasename(base, u, sha1) == OutputBasename(base, t, sha1)
            && ConfigHashCorrected(u.params, sha1) == ConfigHashCorrected(t.params, sha1)
            && OutputBasenameCorrected(base, u, sha1) == OutputBasenameCorrected(base, t, sha1)
  {
  }

  // ---------------------------------------------------------------------
  // The defect of the hash as written

  /** Two tasks that differ only in a solve parameter. */
  function SolveVariant(minVertices: int): MtrackParams
  {
    MtrackParams("cremi", "setup01", 300000, "sample_C", [], [], [],
                 [Entry("cc_min_vertices", Int(minVertices))])
  }

  /** As written, tracking runs with different solve parameters write to the
      same output directory; the canonical hash input tells them apart. */
  lemma AsWrittenCollision(base: string, sha1: HashInput -> Digest)
    ensures SolveVariant(4) != SolveVariant(5)
    ensures OutputBasename(base, Task(Track, SolveVariant(4)), sha1)
            == OutputBasename(base, Task(Track, SolveVariant(5)), sha1)
    ensures CanonicalInput(SolveVariant(4)) != CanonicalInput(SolveVariant(5))
  {
    AsWrittenIgnoresValues(SolveVariant(4), SolveVariant(5), sha1);
    CanonicalInjective(SolveVariant(4), SolveVariant(5));
  }
}

=== FILE: text.dfy ===
/**
  The few Python string operations the naming logic relies on: `str` and
  `int` on integers, `int(a / b)` for a positive divisor, `str.join`, and
  the code-point order `<` on strings that `sorted` uses.
 */
module Text {
  import opened Params

  predicate IsDigit(c: char)
  {
    '0' <= c <= '9'
  }

  function DigitChar(d: nat): (c: char)
    requires d < 10
    ensures IsDigit(c)
  {
    (48 + d) as char
  }

  /** Decimal digits of `n`, most significant first, without leading zeros. */
  function NatToString(n: nat): (r: string)
    ensures |r| > 0
    ensures forall i :: 0 <= i < |r| ==> IsDigit(r[i])
    ensures r[0] == '0' ==> n == 0
    decreases n
  {
    if n < 10 then [DigitChar(n)] else NatToString(n / 10) + [DigitChar(n % 10)]
  }

  /** The value of a string of decimal digits. */
  function DigitsValue(s: string): nat
    requires forall i :: 0 <= i < |s| ==> IsDigit(s[i])
  {
    if |s| == 0 then 0
    else
      assert IsDigit(s[|s| - 1]);
      DigitsValue(s[..|s| - 1]) * 10 + ((s[|s| - 1] as int) - 48)
  }

  /** `str(i)` for a Python integer. */
  function IntToString(i: int): (r: string)
  {
    if i < 0 then "-" + NatToString(-i) else NatToString(i)
  }

  /** `int(s)` for the strings `str` produces: an optional minus sign and
      decimal digits; anything else is a ValueError, here `None`. */
  function ParseInt(s: string): (r: Option<int>)
  {
    if |s| > 0 && s[0] == '-' && |s| > 1 && (forall i :: 1 <= i < |s| ==> IsDigit(s[i])) then
      var n: int := DigitsValue(s[1..]);
      Some(-n)
    else if |s| > 0 && forall i :: 0 <= i < |s| ==> IsDigit(s[i]) then
      Some(DigitsValue(s))
    else None
  }

  /** Reading back the digits of `n` gives `n`. */
  lemma {:induction false} NatToStringRoundTrip(n: nat)
    ensures DigitsValue(NatToString(n)) == n
    decreases n
  {
    if n >= 10 {
      NatToStringRoundTrip(n / 10);
      var s := NatToString(n);
      assert s[..|s| - 1] == NatToString(n / 10);
    }
  }

  /** `int(str(i)) == i`. */
  lemma IntToStringRoundTrip(i: int)
    ensures ParseInt(IntToString(i)) == Some(i)
  {
    if i < 0 {
      NatToStringRoundTrip(-i);
      assert IntToString(i)[1..] == NatToString(-i);
    } else {
      NatToStringRoundTrip(i);
    }
  }

  /** Different integers have different decimal renderings. */
  lemma IntToStringInjective(i: int, j: int)
    ensures IntToString(i) == IntToString(j) <==> i == j
  {
    IntToStringRoundTrip(i);
    IntToStringRoundTrip(j);
  }

  /** `int(a / b)` for b > 0: the quotient rounded toward zero, which for a
      negative `a` differs from Dafny's Euclidean `/`. */
  function TruncDiv(a: int, b: int): (q: int)
    requires b > 0
    ensures a >= 0 ==> q == a / b
    ensures a >= 0 ==> 0 <= a - q * b < b
    ensures a < 0 ==> q <= 0 && 0 <= q * b - a < b
  {
    if a >= 0 then a / b else -((-a) / b)
  }

  /** `sep.join(parts)`. */
  function JoinWith(sep: string, parts: seq<string>): string
  {
    if |parts| == 0 then ""
    else if |parts| == 1 then parts[0]
    else parts[0] + sep + JoinWith(sep, parts[1..])
  }

  /** A first part and a non-empty rest are joined by one separator. */
  lemma JoinWithCons(sep: string, a: string, rest: seq<string>)
    requires |rest| > 0
    ensures JoinWith(sep, [a] + rest) == a + sep + JoinWith(sep, rest)
  {
    assert ([a] + rest)[1..] == rest;
  }

  /** `sep.join` of three parts. */
  lemma JoinWithThree(sep: string, a: string, b: string, c: string)
    ensures JoinWith(sep, [a, b, c]) == a + sep + b + sep + c
  {
    assert [a, b, c][1..] == [b, c];
    assert [b, c][1..] == [c];
    assert JoinWith(sep, [b, c]) == b + sep + c;
  }

  /** `sep.join` of six parts, grouped from the right. */
  lemma JoinWithSix(sep: string, a: string, b: string, c: string, d: string, e: string, f: string)
    ensures JoinWith(sep, [a, b, c, d, e, f])
            == a + sep + (b + sep + (c + sep + (d + sep + (e + sep + f))))
  {
    JoinWithCons(sep, a, [b, c, d, e, f]);
    JoinWithCons(sep, b, [c, d, e, f]);
    JoinWithCons(sep, c, [d, e, f]);
    JoinWithCons(sep, d, [e, f]);
    JoinWithCons(sep, e, [f]);
    assert [a] + [b, c, d, e, f] == [a, b, c, d, e, f];
    assert [b] + [c, d, e, f] == [b, c, d, e, f];
    assert [c] + [d, e, f] == [c, d, e, f];
    assert [d] + [e, f] == [d, e, f];
    assert [e] + [f] == [e, f];
  }

  /** `sep.join` of two non-empty lists of parts, one after the other, is the
      join of the first, then one separator, then the join of the second. */
  lemma {:induction false} JoinWithAppend(sep: string, a: seq<string>, b: seq<string>)
    requires |a| > 0 && |b| > 0
    ensures JoinWith(sep, a + b) == JoinWith(sep, a) + sep + JoinWith(sep, b)
    decreases |a|
  {
    if |a| == 1 {
      assert (a + b)[1..] == b;
    } else {
      assert (a + b)[1..] == a[1..] + b;
      JoinWithAppend(sep, a[1..], b);
    }
  }

  /** Python's `a < b` on strings: lexicographic by code point, a proper
      prefix being smaller. */
  predicate Less(a: string, b: string)
  {
    if |a| == 0 then |b| > 0
    else if |b| == 0 then false
    else if a[0] != b[0] then a[0] < b[0]
    else Less(a[1..], b[1..])
  }

  lemma {:induction false} LessIrreflexive(a: string)
    ensures !Less(a, a)
  {
    if |a| > 0 {
      LessIrreflexive(a[1..]);
    }
  }

  lemma {:induction false} LessTransitive(a: string, b: string, c: string)
    requires Less(a, b) && Less(b, c)
    ensures Less(a, c)
  {
    if |a| > 0 && a[0] == b[0] && b[0] == c[0] {
      LessTransitive(a[1..], b[1..], c[1..]);
    }
  }

  /** Any two different strings are ordered one way or the other. */
  lemma {:induction false} LessTotal(a: string, b: string)
    requires a != b
    ensures Less(a, b) || Less(b, a)
  {
    if |a| > 0 && |b| > 0 && a[0] == b[0] {
      assert a == [a[0]] + a[1..] && b == [b[0]] + b[1..];
      LessTotal(a[1..], b[1..]);
    }
  }

  lemma {:induction false} LessAsymmetric(a: string, b: string)
    requires Less(a, b)
    ensures !Less(b, a)
  {
    if |a| > 0 && |b| > 0 && a[0] == b[0] {
      LessAsymmetric(a[1..], b[1..]);
    }
  }
}
